=== FILE: README.md ===
# Virtual keyboard: text area and keyboard logic in Dafny

This project models the core of a browser on-screen keyboard.

The main part is the caret, selection and editing engine of its text area (`src/js/text-area.js`):
- typing and deleting;
- growing and shrinking a selection;
- horizontal moves;
- vertical moves between visual rows. These remember a "sticky" column across short rows and buffer ends, and take a pending mouse click into account.

It also models the pure decision logic around the text area:
- `src/js/keyboard.js`: the shift/caps-lock layer, the held command keys, hotkey matching, and whether a key press reaches the text area;
- `src/js/key.js`: the flags a key derives from its options, and the label it shows;
- the EN/RU language controllers (`src/js/languageController.js`, `src/js/language-controller.js`);
- `areSetsEqual` (`src/js/utils.js`).

The model is functional. The text area is an immutable `Editor` value, and every method is a function from state to state. The browser's text-control primitives are written out in `TextControl`:
- `setSelectionRange` clamps the end to the length, then the start to the end;
- the `selectionStart`/`selectionEnd` setters clamp to the length;
- `setRangeText(..., 'end')` clamps both bounds, splices, and collapses the caret after the inserted text.

The visual rows that the source reads back from a `wrap="hard"` form submission are an input `rows: seq<string>`. The precondition `Rows.IsLayoutOf(rows, text)` says what the browser guarantees: each row is newline-free, and consecutive rows meet either at a consumed newline (a hard break) or directly (a soft wrap of two non-empty rows).

Modules, one per source file:

| module | file | models |
|---|---|---|
| `Wrappers` | `wrappers.dfy` | `Option` |
| `Sets` | `sets.dfy` | `areSetsEqual` |
| `TextControl` | `text_control.dfy` | the browser's selection and `setRangeText` |
| `Rows` | `rows.dfy` | `_getEolsPositions`, `_getRowsPositions`, `_findRowIndex` and the layout precondition |
| `TextArea` | `text_area.dfy` | the `TextArea` class |
| `TextAreaProps` | `text_area_props.dfy` | multi-step properties and worked examples of the text area |
| `Language` | `language.dfy` | both language controllers |
| `Keys` | `key.dfy` | the `Key` class |
| `Keyboard` | `keyboard.dfy` | the `Keyboard` class's state logic |

## Model

| member | source | states |
|---|---|---|
| `Sets.AreSetsEqualIsEquality` | src/js/utils.js:9-11 | For finite sets, equal sizes plus inclusion is exactly set equality. |
| `Sets.AreSetsEqualReflexive` | src/js/utils.js:9-11 | Every set equals itself. |
| `Sets.AreSetsEqualSymmetric` | src/js/utils.js:9-11 | The test gives the same answer with its arguments swapped. |
| `Sets.DifferentSizesNeverEqual` | src/js/utils.js:10 | Sets of different sizes are never equal. |
| `Sets.SubsetOfSameSize` | src/js/utils.js:10 | A subset as large as its superset is the superset; this is why the inclusion half of the test suffices. |
| `TextControl.SetSelectionRange` | src/js/text-area.js:66-68 | The resulting range always satisfies `start <= end <= len`. An in-range request is kept as is. Otherwise the end is clamped to the length, then the start to the end. |
| `TextControl.SetCursor` | src/js/text-area.js:44-47 | The collapsed caret is the position when it lies in the buffer, and the buffer's length otherwise. |
| `TextControl.SetRangeTextEnd` | src/js/text-area.js:51 | The clamped range is replaced by the replacement text. The caret lands right after the replacement and within the new buffer. |
| `Rows.SplitLines` | src/js/text-area.js:105-106 | `split('\n')` yields at least one piece, and no piece holds a newline. |
| `Rows.JoinSplitLines` | src/js/text-area.js:105-106 | Joining the split pieces with newlines gives the buffer back. |
| `Rows.EolsPositionsAreNewlineIndices` | src/js/text-area.js:103-113 | `_getEolsPositions` returns exactly the offsets of the buffer's newlines, in strictly ascending order. |
| `Rows.FoundIffNewline` | src/js/text-area.js:121 | With the corrected test, a row end is bumped exactly when the next offset holds a newline. |
| `Rows.LinesAreLayoutOf` | src/js/text-area.js:132 | With no soft wraps, the buffer's lines are a valid layout of it. |
| `Rows.RowsPositionsTileBuffer` | src/js/text-area.js:115-128 | On a valid layout the spans tile `0..len`: the first starts at 0, each later one starts one past the previous end, none is empty and the last ends at `len`. Each span starts on its row's text, and a non-last span ends on its newline (hard break) or on its last character (soft wrap). |
| `Rows.RowsPositionsInBuffer` | src/js/text-area.js:115-128 | On a valid layout every span lies within `0..len`. |
| `Rows.RowSpans` | src/js/text-area.js:115-128 | There is one span per row, and the spans tile the buffer. |
| `Rows.FindIndexFrom` | src/js/text-area.js:135-138 | `findIndex` returns the first span holding the caret, or -1 when no span does. |
| `Rows.FindRowIndex` | src/js/text-area.js:130-142 | A row index lies in `-2..|spans|-1`, and with the click flag defined the result is always a number. With the flag false it is the plain `findIndex`. |
| `Rows.FindRowIndexInTiles` | src/js/text-area.js:130-142 | On tiling spans: without a click the index names the row holding the caret. With a click on the line before, a caret at a row start is attributed to that earlier row. The index is -1 exactly when a click on line -1 left the caret at 0. It is NaN exactly when the click flag is still undefined and the caret is at a row start. |
| `Rows.StartsRowAtFound` | src/js/text-area.js:135-138 | On tiling spans `findIndex` finds a row for every caret, and the caret starts some row exactly when it is at the start of the row found. |
| `Rows.TilesCover` | src/js/text-area.js:135-138 | Every caret offset `0..len` lies in some span. |
| `Rows.TilesDisjoint` | src/js/text-area.js:135-138 | No caret offset lies in two spans. |
| `Rows.RowsPositionsAsWrittenAgrees` | src/js/text-area.js:121 | Unless the buffer starts with a newline, the falsy-zero `find` gives the same spans as the corrected test. |
| `Rows.LeadingNewlineLosesLastCaret` | src/js/text-area.js:121 | For "\nab" laid out as "" and "ab", the as-written spans are (0,-1),(0,2). The caret at 3 lies in none of them, so the row index is -1. The corrected spans are (0,0),(1,3). |
| `TextArea.Init` | src/js/text-area.js:4-7 | The initial buffer is "Focus me", with the caret collapsed at its end. The clamp and boundary flags read as false, and the click flag is still undefined. |
| `TextArea.InitReset` | src/js/text-area.js:84-88 | The constructor followed by a move-state reset: the same buffer and caret, with the click flag defined as false. |
| `TextArea.FreshSelectAllThenArrowThrows` | src/js/text-area.js:130-142 | From the constructor's state, select all then arrow up or down throws, because the caret is at the start of the first row while the click flag is undefined. |
| `TextArea.ResetInitArrowsMove` | src/js/text-area.js:156-172 | From the reset constructor's state, select all then arrow up or down completes. |
| `TextArea.ResetMoveState` | src/js/text-area.js:84-88 | The three move flags are cleared and nothing else changes. |
| `TextArea.HandleClick` | src/js/text-area.js:34-42 | A click clears the clamp and boundary flags. It records a pending click, with its line, exactly when a line was computed. |
| `TextArea.PutCursor` | src/js/text-area.js:44-47 | The selection is collapsed at the clamped position, and no other field changes. |
| `TextArea.AddText` | src/js/text-area.js:49-53 | The selection is replaced by the text and the caret lands at `start + |t|`. The three move flags are cleared; the select mode, remembered column and line are kept. |
| `TextArea.Enter` | src/js/text-area.js:184-186 | A newline replaces the selection, and the caret lands one past the old start. |
| `TextArea.Tab` | src/js/text-area.js:188-190 | Four spaces replace the selection, and the caret lands four past the old start. |
| `TextArea.Space` | src/js/text-area.js:192-194 | One space replaces the selection, and the caret lands one past the old start. |
| `TextArea.SelectAll` | src/js/text-area.js:55-58 | The selection becomes `(0, len)` with mode right. Nothing else changes. |
| `TextArea.SelectLeft` | src/js/text-area.js:60-70 | The selection stays valid and the text is kept. A collapsed selection starts growing leftwards. While growing leftwards the start moves left (stopping at 0); otherwise the end moves back left. |
| `TextArea.SelectRight` | src/js/text-area.js:72-82 | The mirror image: a collapsed selection starts growing rightwards. While growing rightwards the end moves right (clamped to the length); otherwise the start moves right. |
| `TextArea.ArrowLeft` | src/js/text-area.js:90-95 | The selection collapses one left of its start (staying at 0), and the move flags are cleared. |
| `TextArea.ArrowRight` | src/js/text-area.js:97-101 | The selection collapses one right of its start (clamped to the length), and the move flags are cleared. |
| `TextArea.BoundaryMove` | src/js/text-area.js:144-154 | The caret goes to 0 (up) or to the length (down) and the boundary flag is set. The column is remembered only if neither the boundary flag nor the clamp flag was set before. |
| `TextArea.MoveToRow` | src/js/text-area.js:163-171 | The caret lands inside the target row. After a boundary move, or while clamped with a smaller column, the remembered column is reused. The clamp flag is set exactly when that column exceeds the row's width, and the caret is then at the row's end. |
| `TextArea.MoveVertically` | src/js/text-area.js:130-172 | The state stays valid and the text is kept; the click flag always ends false. The move throws exactly when the row index is NaN (flag undefined, caret at a row start) or -1 (a click on line -1 left the caret at 0). A completed move ends collapsed, inside the next row in the move's direction from the row `_findRowIndex` names, or at 0 or the buffer's end when there is no such row. |
| `TextArea.ArrowUp` | src/js/text-area.js:174-177 | The caret never moves right. With the click flag false the move always completes; with it undefined, a caret at 0 throws. |
| `TextArea.ArrowDown` | src/js/text-area.js:179-182 | The caret never moves left. With the click flag false the move always completes; with it undefined, a caret at 0 throws. |
| `TextArea.MoveFromRow` | src/js/text-area.js:156-172 | Without a click, the move starts from the row holding the caret and lands on the neighbouring row at the caret's column. |
| `TextArea.BoundaryFromRow` | src/js/text-area.js:159-161 | Without a click, when there is no neighbouring row the move is a boundary move from the caret's row. |
| `TextArea.VerticalRoundTrip` | src/js/text-area.js:163-171 | With no move state, a move to a neighbouring row and back restores the caret, even when the other row was too short. |
| `TextArea.MoveToRowRemembers` | src/js/text-area.js:164-170 | From a fresh state, the move remembers the caret's column and lands at that column or at the row's end. |
| `TextArea.ReturnToColumn` | src/js/text-area.js:165-170 | From a row where a column is remembered, moving to a row wide enough for it lands exactly on it. |
| `TextArea.UpFromFirstRow` | src/js/text-area.js:159-161 | Up from the first row goes to offset 0 and remembers the column. |
| `TextArea.DownFromLastRow` | src/js/text-area.js:159-161 | Down from the last row goes to the end of the buffer and remembers the column. |
| `TextArea.DeleteSelection` | src/js/text-area.js:214-217 | The selection is cut out and the caret stays at its start. The move state is untouched. |
| `TextArea.Backspace` | src/js/text-area.js:196-203 | A caret removes the character before it, and is a no-op at 0. A selection is cut out. The move state is untouched. |
| `TextArea.Delete` | src/js/text-area.js:205-212 | A caret removes the character after it, and is a no-op at the end. A selection is cut out. The move state is untouched. |
| `TextAreaProps.BackspacesRemove` | src/js/text-area.js:196-203 | With the caret right after `t`, `|t|` backspaces remove exactly `t`. |
| `TextAreaProps.InsertThenBackspace` | src/js/text-area.js:49-53 | `addText(t)` at a caret followed by `|t|` backspaces gives back the buffer and the caret. |
| `TextAreaProps.SelectAllThenDelete` | src/js/text-area.js:55-58 | Select all, then delete the selection, empties the buffer. |
| `TextAreaProps.LeftThenRight` | src/js/text-area.js:90-101 | From a caret `o > 0`, left then right returns to `o`. |
| `TextAreaProps.RightThenLeft` | src/js/text-area.js:90-101 | From a caret before the end, right then left returns to it. |
| `TextAreaProps.SelectRightThenLeft` | src/js/text-area.js:60-82 | Growing right then pressing select-left shrinks the selection back to the caret. |
| `TextAreaProps.SelectLeftThenRight` | src/js/text-area.js:60-82 | Growing left then pressing select-right shrinks the selection back to the caret. |
| `TextAreaProps.SelectRightGrows` | src/js/text-area.js:72-82 | `n` select-right presses from a caret select exactly the next `n` characters. |
| `TextAreaProps.HelloWorldSelection` | src/js/text-area.js:60-82 | In "hello world", three select-right presses from 0 give (0,3), and one select-left then gives (0,2). |
| `TextAreaProps.DownThenUpKeepsColumn` | src/js/text-area.js:156-172 | In "abc\ndEFGH", down from 1 lands on 5 and up returns to 1. |
| `TextAreaProps.DownToColumnOne` | src/js/text-area.js:163-171 | Down from 1 in "abc\ndEFGH" lands on 5, remembering column 1. |
| `TextAreaProps.UpFromColumnOne` | src/js/text-area.js:163-171 | From 5 with column 1 remembered, up lands on 1. |
| `TextAreaProps.BoundaryMoveKeepsColumn` | src/js/text-area.js:144-172 | In "abc\ndEFGH", down from 6 goes to the end and remembers column 2; up then lands on 2. |
| `TextAreaProps.ClampedColumnIsRemembered` | src/js/text-area.js:163-171 | In "abcdef\nab\nabcdef", down from 5 is clamped to 9, and down again lands back on column 5 at 15. |
| `TextAreaProps.ClampedFirstDown` | src/js/text-area.js:163-171 | Down from 5 in "abcdef\nab\nabcdef" is clamped to the short row's end, 9, remembering column 5. |
| `TextAreaProps.ClampedSecondDown` | src/js/text-area.js:163-171 | From 9 with column 5 remembered, down lands on 15. |
| `TextAreaProps.ClickAtSoftWrap` | src/js/text-area.js:130-142 | In "abcdefghi" wrapped as abc/def/ghi with the caret at 3: after a click on line 0, down counts from the first row and lands on 5. Without a click it lands on 6. |
| `Language.SetLanguage` | src/js/languageController.js:24-29 | The new value is taken. A different value is saved and counted once; the same value changes nothing. |
| `Language.Load` | src/js/languageController.js:41-44 | The stored string, or null, goes through the setter. The result is true exactly when something was stored. |
| `Language.Create` | src/js/languageController.js:2-5 | A stored language is taken over. Without one the language is 'en'. Either way storage holds the language. |
| `Language.Toggle` | src/js/languageController.js:31-35 | 'en' becomes 'ru' and anything else becomes 'en'. The result is always 'en' or 'ru', and it is saved exactly when it changed. |
| `Language.ToggleTwice` | src/js/language-controller.js:19-23 | Toggling twice from 'en' or 'ru' is the identity. |
| `Language.SetSameIsNoOp` | src/js/language-controller.js:12-17 | Setting the current language changes and saves nothing. |
| `Language.CreatedIsSaved` | src/js/language-controller.js:1-6 | A fresh controller has saved the language it holds, so loading again changes nothing. |
| `Language.KeySet` | src/js/languageController.js:9-11 | The current language's key set, present exactly when the key sets have one. |
| `Language.GetKeyValues` | src/js/languageController.js:13-18 | There is one entry per language, and it holds that language's value for the code when there is one. |
| `Language.KeySetAgreesWithKeyValues` | src/js/languageController.js:9-18 | Looking the code up in the current key set agrees with the current language's entry of `getKeyValues`. |
| `Keys.ParseOptions` | src/js/key.js:13-20 | A key is special iff it has a special entry. It is repeatable iff it is not special or the entry says so. It is a command key iff it is special and the entry says so. |
| `Keys.ParsedFlags` | src/js/key.js:15-19 | Parsing yields consistent flags: a command key is special, and an ordinary key repeats. |
| `Keys.SetValue` | src/js/key.js:31-36 | A special key shows its own label. Another key shows its label for the language and layer, or throws when the language entry is missing. The key itself is returned. |
| `Keys.SpecialLabelIsFixed` | src/js/key.js:31-36 | A special key's label depends on neither the layer nor the language. |
| `Keys.SetValueAsCalled` | src/js/keyboard.js:203-205 | Called with a bare layer name, as `updateButtons` and `render` do, `setValue` throws. Called with the object its parameter list expects, it behaves as `SetValue`. |
| `Keys.PositionalCallThrows` | src/js/keyboard.js:204 | Even a special key throws under the positional call, while the object form sets its label. |
| `Keyboard.Initial` | src/js/keyboard.js:12-23 | The keyboard starts with no modifiers, the plain layer and nothing held. |
| `Keyboard.ChangeState` | src/js/keyboard.js:57-68 | Each layer is chosen exactly by its flag combination: caps and shift, shift alone, caps alone, neither. |
| `Keyboard.ChangeStateDecodes` | src/js/keyboard.js:57-68 | The layer determines both flags. |
| `Keyboard.SetShift` | src/js/keyboard.js:38-41 | Shift takes the new value, the layer follows it, and nothing else changes. |
| `Keyboard.SetCapslock` | src/js/keyboard.js:47-51 | Caps lock takes the new value, the layer follows it, and nothing else changes. |
| `Keyboard.Invoke` | src/js/keyboard.js:78-88 | `shiftLeft`/`shiftRight` set shift to their argument (undefined reads as false). `capsLock` flips caps lock. `languageSwitch` toggles the language. The layer stays consistent and the held keys are untouched. |
| `Keyboard.CallOwn` | src/js/keyboard.js:102 | A method name is dispatched to the keyboard method of that name. Any other name changes nothing, since the key codes name no other keyboard member. |
| `Keyboard.ToggleCommandBtn` | src/js/keyboard.js:90-97 | The toggle becomes the given value, or flips when none is given, and that new value is returned. Other toggles are unchanged. |
| `Keyboard.ToggleTwice` | src/js/keyboard.js:90-97 | Flipping a toggle twice restores it. |
| `Keyboard.CommandBtnDown` | src/js/keyboard.js:105-117 | A real press adds the command key to the held set and keeps the toggles. A synthetic press flips the key's toggle and holds the command key exactly while the toggle is on. No other held key changes. |
| `Keyboard.CommandBtnUp` | src/js/keyboard.js:119-127 | A real release drops the command key and switches its toggle off. A synthetic release changes nothing. |
| `Keyboard.CommandPressRelease` | src/js/keyboard.js:105-127 | A real press then release leaves the other held keys as they were and the key off. |
| `Keyboard.CommandClickTwice` | src/js/keyboard.js:105-117 | Two synthetic presses restore the toggle, and whether the command key is held. |
| `Keyboard.ClearFrom` | src/js/keyboard.js:132-136 | Every listed command key's toggle is off, other toggles are unchanged, and the layer stays consistent. |
| `Keyboard.ClearCommandKeys` | src/js/keyboard.js:129-138 | A synthetic event (or none) empties the held set and switches every command key off: every code of the command-key list, and so every rendered key marked as a command key, since the list is built from the same table (src/js/keyboard.js:19). A real event changes nothing. |
| `Keyboard.FirstHotkey` | src/js/keyboard.js:219-230 | The search returns the first eligible hotkey whose set equals the compare set, and no earlier hotkey qualifies. |
| `Keyboard.HandleHotkey` | src/js/keyboard.js:213-231 | The result is true iff some hotkey fires; when none fires nothing changes. When one fires, it is the first eligible entry whose set equals the compare set: its name is called on the text area and dispatched to the keyboard's own method of that name. Held keys and toggles are kept. |
| `Keyboard.HotkeyRunsFirstMatch` | src/js/keyboard.js:158-160 | When entry `i` is the first eligible hotkey whose set is the compare set, a non-command key press calls exactly that entry's method on the text area. |
| `Keyboard.FiresIffSomeHotkey` | src/js/keyboard.js:213-231 | A hotkey fires iff some entry is eligible and its set equals the held command keys plus the code of a non-command key. When the last key is a command key, eligible means the entry contains that key's command key. |
| `Keyboard.FiresIffSameSet` | src/js/keyboard.js:224 | The same with plain set equality in place of `areSetsEqual`. |
| `Keyboard.HandleSpecialBtnDown` | src/js/keyboard.js:99-103 | The text area's method named after the code is called, and so is the keyboard's own method of that name: the CapsLock key flips caps and keeps shift, and a name that is not a keyboard method leaves the keyboard unchanged. Held keys and toggles are kept. |
| `Keyboard.KeyInput` | src/js/keyboard.js:161-167 | A non-command key that completed no hotkey sends at most one effect, and sends one exactly when `ProducesInput` holds: a special key's method or an ordinary key's character. |
| `Keyboard.TypeKey` | src/js/keyboard.js:161-167 | That effect is sent, and the keyboard changes only by the special key's own method. |
| `Keyboard.HandleKeyDown` | src/js/keyboard.js:140-172 | Ignored events change nothing. A non-command key types its character iff it is not special, triggered no hotkey, and either no command key is held or exactly one is held with shift on. Its effects are exactly the hotkey's when one fires, and otherwise exactly `KeyInput`'s, so a special key such as Backspace obeys the same rule. Afterwards a synthetic event leaves nothing held; a real one leaves the held keys as they were. A command key behaves as in `CommandKeyDown`. |
| `Keyboard.CommandKeyDown` | src/js/keyboard.js:152-157 | The key is held or toggled first. If that completes no hotkey, that is all. If it does, exactly one text-area method is called; after a real press the command key is added to the held set and the toggles are kept, and after a synthetic one nothing stays held and every command key is off. |
| `Keyboard.OtherKeyDown` | src/js/keyboard.js:158-171 | The input rule of `HandleKeyDown` and the clearing of the held keys, for a non-command key: the hotkey's effects when one fires, otherwise `KeyInput`'s. A trusted press that fires nothing changes the keyboard only through the special key's own method. |
| `Keyboard.HeldCommandBlocksInput` | src/js/keyboard.js:161-167 | With two command keys held, or one that is not shift, a non-command key (Backspace included) sends nothing to the text area unless it completes a hotkey, and then only that hotkey's method. |
| `Keyboard.UnboundKeyTypes` | src/js/keyboard.js:158-167 | With nothing held and no hotkey bound, an ordinary key sends exactly its character. |
| `Keyboard.CapsLockKeyFlipsCaps` | src/js/keyboard.js:158-167 | A real CapsLock press with nothing held and no hotkey bound calls the text area's `capsLock` once and flips the keyboard's caps state, keeping shift. |
| `Keyboard.HandleKeyUp` | src/js/keyboard.js:174-191 | Ignored events and non-command keys change nothing. A real command-key release drops its command key and switches it off. |
| `Keyboard.HandleWindowBlur` | src/js/keyboard.js:300-307 | After a blur no key is pressed with the mouse, shift is off, nothing is held and every command key is off. |

## Left out

- DOM rendering, CSS classes and `setState` on key elements are not modelled. Nor are the media-query label rewriting (`src/js/keyboard.js:309-320`) and `createElement`.
- The key-repeat timers and the mouse handlers that dispatch synthetic events (`src/js/keyboard.js:233-270`) are not modelled. Their events enter the model as `Event` values with `isTrusted` false.
- The line-height and padding measurement, and the float arithmetic of `handleClick`, are not modelled. `TextArea.HandleClick` takes the computed line (or none) as an input.
- The browser's word wrap is not reimplemented. The rows are an input constrained by `Rows.IsLayoutOf`.
- `isFocused` is not modelled; it is the `focused` input of the key handlers.
- `localStorage` is a single optional stored string plus a count of writes.
- The keys, hotkeys and layout tables are data files outside this model. They enter as `Keyboard.Config`.
- `Keyboard.HandleKeyDown`: a non-command key calls `textArea.addCharacter(key)` (`src/js/keyboard.js:165`), which `src/js/text-area.js` does not define. As written that call throws a TypeError before the command keys are released at `src/js/keyboard.js:168-169`. The model records the call as an `AddCharacter` effect and assumes it returns, so the release still happens.
- `Keyboard.CallOwn`: `this[fnName]` can name any member of the keyboard object. The model dispatches only the four own methods; the key and layout tables are outside this model, and it assumes they name no other keyboard member.
- `Keyboard.Initial`, `Keyboard.SetShift`, `Keyboard.SetCapslock` and `Keyboard.Invoke` model the corrected `setValue` call. As written, the positional call in `render` (`src/js/keyboard.js:291`, reached from the constructor at `src/js/keyboard.js:26`) already throws while the keyboard is built. The one in `updateButtons` (`src/js/keyboard.js:204`) throws again on each layer or language change.
- `TextArea.MoveVertically`: the rows are placed with the corrected spans of `Rows.RowSpans`, not with the falsy-zero `find` of `src/js/text-area.js:121` (see Findings). `TextArea.ArrowUp` and `TextArea.ArrowDown` therefore also use the corrected spans.
- `TextArea.AddText`: offsets count Dafny characters. They equal the source's UTF-16 code units only for text in the Basic Multilingual Plane.
- `TextArea.Backspace`: offsets count characters; equal to UTF-16 units only for Basic Multilingual Plane text, so an astral character is removed whole rather than one surrogate at a time.
- `TextArea.Delete`: offsets count characters; equal to UTF-16 units only for Basic Multilingual Plane text.
- `TextArea.ArrowLeft`: offsets count characters; equal to UTF-16 units only for Basic Multilingual Plane text, so the caret never stops between two surrogates.
- `TextArea.ArrowRight`: offsets count characters; equal to UTF-16 units only for Basic Multilingual Plane text.
- `Rows.RowsPositions`: row lengths (`row.length`, `src/js/text-area.js:118-125`) count characters; equal to UTF-16 units only for Basic Multilingual Plane text, so a row holding an astral character has a shorter span than in the source.
- `Rows.RowSpans`: the same character count as `Rows.RowsPositions`; the spans match the source's only for Basic Multilingual Plane text.
- `TextArea.MoveToRow`: the column arithmetic (`src/js/text-area.js:163-170`) counts characters; equal to UTF-16 units only for Basic Multilingual Plane text.
- `TextArea.MoveVertically`: the same character-count column as `TextArea.MoveToRow`, for the same reason.
- `TextArea.SelectLeft`: offsets count characters; equal to UTF-16 units only for Basic Multilingual Plane text, so the selection never ends between two surrogates.
- `TextArea.SelectRight`: offsets, and the clamp to `value.length` (`src/js/text-area.js:72-82`), count characters; equal to UTF-16 units only for Basic Multilingual Plane text.
- `TextArea.SelectAll`: the end `value.length` (`src/js/text-area.js:55-58`) is the character count; equal to the UTF-16 length only for Basic Multilingual Plane text.
- `Keyboard.HandleHotkey`: the text-area methods that hotkeys and special keys call are recorded as `TextAreaCall` effects, not applied to an `Editor`. The source guards each call with `if (textArea[name])`, so an unknown name does nothing.
- `Keyboard.OtherKeyDown`: `key.isArrow` is never set by `src/js/key.js`. The release condition at `src/js/keyboard.js:168` therefore always holds, and the model releases unconditionally.
- `Keyboard.MethodName`: lower-casing is ASCII only. Non-ASCII first letters of key codes are kept as they are.
- `updateButtons` and `toggleButtonOn` only refresh labels and classes. Beyond the `setValue` call-site finding, they are not modelled.
- `src/js/text-measure-tool.js` is not part of this model. The text area moves by character offset and never uses it.

## Findings

| source | as written | input that shows it | evidently intended | confidence | as-written member | corrected member |
|---|---|---|---|---|---|---|
| src/js/text-area.js:121 | `eolsPositions.find((v) => v === end + 1)` tests the found value for truthiness, and a newline at offset 0 is found as the falsy 0 | the buffer "\nab" with rows "" and "ab": spans (0,-1),(0,2), so the caret at 3 is in no row, `_findRowIndex` returns -1 and `arrowUp`/`arrowDown` throw reading `rowsPositions[-1]` | bump the row end whenever `end + 1` is a newline offset, giving (0,0),(1,3) | not executed | `Rows.LeadingNewlineLosesLastCaret` | `Rows.RowsPositionsTileBuffer` |
| src/js/keyboard.js:204 | `keys[keyCode].setValue(state, language)` passes two strings, while `setValue` destructures `{ state, languageController: { language } }` from its first argument; the same positional call sits in `render` at src/js/keyboard.js:291, which the constructor reaches at src/js/keyboard.js:26 | building the keyboard: the first key `render` creates gets `setValue('key', 'en')`, and reading `language` from the undefined `languageController` of the string `state` throws a TypeError, so the constructor throws; `updateButtons` fails the same way | pass `{ state, languageController }` as one object, so the label for the layer and language is chosen | not executed | `Keys.PositionalCallThrows` | `Keys.SetValue` |
| src/js/text-area.js:4-8 | the constructor never calls `_resetMoveState`, so `isMouseClick` starts `undefined`; in `_findRowIndex` (src/js/text-area.js:135-140) `cursorPos === start && this.isMouseClick && ...` is then `undefined` for a caret at a row start, and `index -= undefined` is NaN | right after construction, select all (the caret goes to 0, the start of the first row) and press arrow up or down: `rowsPositions[NaN].start` throws a TypeError | start with the move state reset, so the flag reads false and the move completes | not executed | `TextArea.FreshSelectAllThenArrowThrows` | `TextArea.InitReset` |

=== FILE: key.dfy ===
/**
 * One key of the on-screen keyboard (src/js/key.js): the flags derived from its options and
 * the label it shows for a keyboard layer and a language. Rendering is not modelled.
 */
module Keys {
  import opened Wrappers

  /** `Keyboard.STATE`: 'key', 'shift', 'caps', 'capsAndShift'. */
  datatype Layer = Plain | Shift | Caps | CapsAndShift

  /**
   * An entry of the common-keys table: the label, and the optional `repeatable`, `command`
   * and `commandKey` fields (an absent flag reads as false).
   */
  datatype Special = Special(value: string, repeatable: bool, command: bool, commandKey: string)

  /**
   * The constructor's options: the code, the special entry when the code has one, and
   * otherwise one entry per language, each the layer labels or undefined.
   */
  datatype KeyOptions = KeyOptions(code: string, special: Option<Special>, values: map<string, Option<map<Layer, string>>>)

  /** A key with the flags `_parseOptions` derives and the current label (`value`), undefined until set. */
  datatype Key = Key(
    code: string,
    special: Option<Special>,
    values: map<string, Option<map<Layer, string>>>,
    isSpecial: bool,
    isRepeatable: bool,
    isCommand: bool,
    value: Option<string>)

  /** `_parseOptions(options)`: copies the options and derives the three flags. */
  function ParseOptions(o: KeyOptions): (k: Key)
    ensures k.code == o.code && k.special == o.special && k.values == o.values && k.value.None?
    ensures k.isSpecial <==> o.special.Some?
    ensures k.isRepeatable <==> o.special.None? || o.special.value.repeatable
    ensures k.isCommand <==> o.special.Some? && o.special.value.command
  {
    var isSpecial := o.special.Some?;
    Key(o.code, o.special, o.values,
        isSpecial,
        !isSpecial || o.special.value.repeatable,
        isSpecial && o.special.value.command,
        None)
  }

  /** What `_parseOptions` guarantees of every key. */
  predicate Parsed(k: Key) {
    && (k.isSpecial <==> k.special.Some?)
    && (k.isRepeatable <==> !k.isSpecial || k.special.value.repeatable)
    && (k.isCommand <==> k.isSpecial && k.special.value.command)
  }

  /** Parsing keeps the flags consistent: a command key is special, an ordinary key repeats. */
  lemma ParsedFlags(o: KeyOptions)
    ensures Parsed(ParseOptions(o))
    ensures ParseOptions(o).isCommand ==> ParseOptions(o).isSpecial
    ensures !ParseOptions(o).isSpecial ==> ParseOptions(o).isRepeatable
  {
  }

  /**
   * `setValue` with the layer and the language: a special key shows its own label; any
   * other key shows its label for that language and layer (undefined when the layer has
   * none), and None stands for the TypeError of reading a layer of an undefined language
   * entry. The key itself is returned.
   */
  function SetValue(k: Key, layer: Layer, language: string): (r: Option<Key>)
    requires Parsed(k)
    ensures r.Some? ==> r.value == k.(value := r.value.value)
    ensures k.isSpecial ==> r == Some(k.(value := Some(k.special.value.value)))
    ensures !k.isSpecial ==>
              (r.None? <==> language !in k.values || k.values[language].None?)
    ensures !k.isSpecial && r.Some? ==>
              var labels := k.values[language].value;
              r.value.value == if layer in labels then Some(labels[layer]) else None
  {
    if k.isSpecial then
      Some(k.(value := Some(k.special.value.value)))
    else if language in k.values && k.values[language].Some? then
      var labels := k.values[language].value;
      Some(k.(value := if layer in labels then Some(labels[layer]) else None))
    else
      None
  }

  /** A special key's label depends on neither the layer nor the language. */
  lemma SpecialLabelIsFixed(k: Key, l1: Layer, l2: Layer, lang1: string, lang2: string)
    requires Parsed(k) && k.isSpecial
    ensures SetValue(k, l1, lang1) == SetValue(k, l2, lang2)
    ensures SetValue(k, l1, lang1).Some?
  {
  }

  /**
   * The first argument `setValue` reads: an object with `state` and `languageController`,
   * or, as `updateButtons` passes it, the bare layer name (the language then goes in a
   * second argument that `setValue` never reads).
   */
  datatype ValueArg = ByObject(state: Layer, language: string) | ByLayerName(layer: Layer)

  /**
   * `setValue` as its parameter list reads the argument: destructuring `languageController`
   * out of a layer name gives undefined, and reading `language` from undefined is a
   * TypeError (None) before any label is chosen.
   */
  function SetValueAsCalled(k: Key, arg: ValueArg): (r: Option<Key>)
    requires Parsed(k)
    ensures arg.ByObject? ==> r == SetValue(k, arg.state, arg.language)
    ensures arg.ByLayerName? ==> r.None?
  {
    match arg
    case ByObject(state, language) => SetValue(k, state, language)
    case ByLayerName(_) => None
  }

  /**
   * The positional call throws even for a special key, whose label needs neither layer nor
   * language; the object form sets that label.
   */
  lemma PositionalCallThrows(k: Key, layer: Layer, language: string)
    requires Parsed(k) && k.isSpecial
    ensures SetValueAsCalled(k, ByLayerName(layer)).None?
    ensures SetValueAsCalled(k, ByObject(layer, language)) == Some(k.(value := Some(k.special.value.value)))
  {
  }
}

=== FILE: keyboard.dfy ===
/**
 * The decision logic of the on-screen keyboard (src/js/keyboard.js): the shift/caps layer,
 * the command keys held down, hotkey matching and whether a key press reaches the text area.
 * What a handler would do to the text area is returned as a list of effects; DOM classes,
 * labels and the repeat timer are not modelled.
 */
module Keyboard {
  import opened Wrappers
  import opened Sets
  import opened Keys
  import Language

  /** An entry of the hotkey table: the method it calls and the key codes and command keys it needs. */
  datatype Hotkey = Hotkey(name: string, keys: set<string>)

  /**
   * The fixed tables: the rendered keys by code, the codes of the command keys in table order,
   * and the hotkeys in table order.
   */
  datatype Config = Config(keys: map<string, Key>, commandCodes: seq<string>, hotkeys: seq<Hotkey>)
  {
    predicate Valid() {
      && (forall c :: c in keys ==> |c| > 0 && keys[c].code == c && Parsed(keys[c]))
      && (forall i :: 0 <= i < |commandCodes| ==> |commandCodes[i]| > 0)
      // `commandKeys` is filtered from the same table as the keys, so it lists every command key
      && (forall c :: c in keys && keys[c].isCommand ==> c in commandCodes)
    }
  }

  /**
   * The keyboard's own state: the two modifier flags and the layer computed from them, the
   * command keys held down, the `is<Code>` toggles of command keys, the code pressed with the
   * mouse, and the shared language controller.
   */
  datatype Kb = Kb(
    isCapslock: bool,
    isShift: bool,
    layer: Layer,
    pressed: set<string>,
    toggles: map<string, bool>,
    pressedKeyCode: string,
    lang: Language.Controller)
  {
    /** The layer is the one `changeState` computes from the flags, as both setters ensure. */
    predicate LayerConsistent() {
      layer == ChangeState(isCapslock, isShift)
    }
  }

  /** The fields of a keyboard event the handlers read. */
  datatype Event = Event(code: string, isTrusted: bool, repeat: bool)

  /**
   * A call the handlers make into the text area: `textArea[name]()`, guarded in the source by
   * `if (textArea[name])`, so a name the text area has no method for does nothing; and the
   * `addCharacter(code)` of an ordinary key.
   */
  datatype Effect = TextAreaCall(name: string) | AddCharacter(code: string)

  datatype Reaction = Reaction(kb: Kb, effects: seq<Effect>)

  /** The constructor's state: no modifiers, the plain layer, nothing held. */
  function Initial(lang: Language.Controller): (kb: Kb)
    ensures kb.LayerConsistent() && kb.layer == Plain && kb.pressed == {}
  {
    Kb(false, false, ChangeState(false, false), {}, map[], "", lang)
  }

  /** `changeState()`: caps and shift, shift alone, caps alone, or neither. */
  function ChangeState(isCapslock: bool, isShift: bool): (layer: Layer)
    ensures layer == CapsAndShift <==> isCapslock && isShift
    ensures layer == Shift <==> !isCapslock && isShift
    ensures layer == Caps <==> isCapslock && !isShift
    ensures layer == Plain <==> !isCapslock && !isShift
  {
    if isCapslock && isShift then CapsAndShift
    else if isShift then Shift
    else if isCapslock then Caps
    else Plain
  }

  /** Whether caps lock is on in a layer. */
  function CapsOf(layer: Layer): (on: bool) {
    layer == Caps || layer == CapsAndShift
  }

  /** Whether shift is held in a layer. */
  function ShiftOf(layer: Layer): (held: bool) {
    layer == Shift || layer == CapsAndShift
  }

  /** The layer determines both flags: `changeState` loses nothing. */
  lemma ChangeStateDecodes(isCapslock: bool, isShift: bool)
    ensures CapsOf(ChangeState(isCapslock, isShift)) == isCapslock
    ensures ShiftOf(ChangeState(isCapslock, isShift)) == isShift
  {
  }

  /** The `isShift` setter: the flag, then the layer. */
  function SetShift(kb: Kb, v: bool): (r: Kb)
    ensures r.isShift == v && r.LayerConsistent()
    ensures r.(isShift := kb.isShift, layer := kb.layer) == kb
  {
    kb.(isShift := v, layer := ChangeState(kb.isCapslock, v))
  }

  /** The `isCapslock` setter: the flag, then the layer. */
  function SetCapslock(kb: Kb, v: bool): (r: Kb)
    ensures r.isCapslock == v && r.LayerConsistent()
    ensures r.(isCapslock := kb.isCapslock, layer := kb.layer) == kb
  {
    kb.(isCapslock := v, layer := ChangeState(v, kb.isShift))
  }

  /** The keyboard's own methods a key code or a hotkey name can reach through `this[fnName]`. */
  datatype OwnMethod = SetsShift | FlipsCapsLock | SwitchesLanguage

  const OwnMethods: map<string, OwnMethod> :=
    map["shiftLeft" := SetsShift, "shiftRight" := SetsShift, "capsLock" := FlipsCapsLock, "languageSwitch" := SwitchesLanguage]

  /**
   * One of the keyboard's own methods, called with `arg`: `shiftLeft`/`shiftRight` set shift
   * to the argument (an undefined one reads as false), `capsLock` flips caps lock whatever
   * the argument, `languageSwitch` toggles the language.
   */
  function Invoke(kb: Kb, m: OwnMethod, arg: Option<bool>): (r: Kb)
    requires kb.LayerConsistent()
    ensures r.LayerConsistent()
    ensures r.pressed == kb.pressed && r.toggles == kb.toggles && r.pressedKeyCode == kb.pressedKeyCode
    ensures m == SetsShift ==> r.isShift == (arg == Some(true)) && r.isCapslock == kb.isCapslock && r.lang == kb.lang
    ensures m == FlipsCapsLock ==> r.isCapslock == !kb.isCapslock && r.isShift == kb.isShift && r.lang == kb.lang
    ensures m == SwitchesLanguage ==> r == kb.(lang := Language.Toggle(kb.lang))
  {
    match m
    case SetsShift => SetShift(kb, arg == Some(true))
    case FlipsCapsLock => SetCapslock(kb, !kb.isCapslock)
    case SwitchesLanguage => kb.(lang := Language.Toggle(kb.lang))
  }

  /** `if (this[fnName]) this[fnName](arg)`: a name that is no method of the keyboard does nothing. */
  function CallOwn(kb: Kb, name: string, arg: Option<bool>): (r: Kb)
    requires kb.LayerConsistent()
    ensures r.LayerConsistent()
    ensures r.pressed == kb.pressed && r.toggles == kb.toggles && r.pressedKeyCode == kb.pressedKeyCode
    ensures name !in OwnMethods ==> r == kb
  {
    if name in OwnMethods then Invoke(kb, OwnMethods[name], arg) else kb
  }

  /** Whether `is<code>` is truthy (an unset toggle is undefined). */
  predicate IsOn(kb: Kb, code: string) {
    code in kb.toggles && kb.toggles[code]
  }

  /** `toggleCommandBtn(code, v)`: `is<code>` becomes `v`, or flips when `v` is undefined; returns the new value. */
  function ToggleCommandBtn(kb: Kb, code: string, v: Option<bool>): (r: (Kb, bool))
    ensures r.1 == if v.Some? then v.value else !IsOn(kb, code)
    ensures IsOn(r.0, code) == r.1
    ensures forall c :: c != code ==> IsOn(r.0, c) == IsOn(kb, c)
    ensures r.0.(toggles := kb.toggles) == kb
  {
    var on := if v.Some? then v.value else !IsOn(kb, code);
    (kb.(toggles := kb.toggles[code := on]), on)
  }

  /** Flipping a toggle twice restores it. */
  lemma ToggleTwice(kb: Kb, code: string)
    ensures var once := ToggleCommandBtn(kb, code, None).0;
            IsOn(ToggleCommandBtn(once, code, None).0, code) == IsOn(kb, code)
  {
  }

  /** ASCII lower-casing of one character. */
  function LowerChar(ch: char): char {
    if 'A' <= ch <= 'Z' then (ch as int + 32) as char else ch
  }

  /** `code[0].toLowerCase() + code.slice(1)`: the method name a key code maps to. */
  function MethodName(code: string): (name: string)
    requires |code| > 0
    ensures |name| == |code| && name[1..] == code[1..]
  {
    [LowerChar(code[0])] + code[1..]
  }

  /** The `commandKey` of a command key's entry in the common-keys table. */
  function CommandKeyOf(cfg: Config, code: string): (ck: string)
    requires code in cfg.keys && cfg.keys[code].isCommand && Parsed(cfg.keys[code])
  {
    cfg.keys[code].special.value.commandKey
  }

  /**
   * `handleCommandBtnDown(e)`: the key's own method is called with true; a real key press
   * adds its command key to the held set; a synthetic one flips the key's toggle and holds
   * the command key while the toggle is on, releasing it (and calling the method with false)
   * when the toggle goes off.
   */
  function CommandBtnDown(cfg: Config, kb: Kb, ev: Event): (r: Kb)
    requires cfg.Valid() && ev.code in cfg.keys && cfg.keys[ev.code].isCommand
    requires kb.LayerConsistent()
    ensures r.LayerConsistent()
    ensures var ck := CommandKeyOf(cfg, ev.code);
            && r.pressed - {ck} == kb.pressed - {ck}
            && (ck in r.pressed <==> ev.isTrusted || !IsOn(kb, ev.code))
    ensures ev.isTrusted ==> r.pressed == kb.pressed + {CommandKeyOf(cfg, ev.code)} && r.toggles == kb.toggles
    ensures !ev.isTrusted ==> IsOn(r, ev.code) == !IsOn(kb, ev.code)
    ensures forall c :: c != ev.code ==> IsOn(r, c) == IsOn(kb, c)
    ensures r.pressedKeyCode == kb.pressedKeyCode
  {
    var ck := CommandKeyOf(cfg, ev.code);
    var name := MethodName(ev.code);
    var s := CallOwn(kb, name, Some(true));
    if ev.isTrusted then s.(pressed := s.pressed + {ck})
    else SyntheticCommandDown(s, ev.code, ck, name)
  }

  /** The synthetic half of `handleCommandBtnDown`: flip the toggle; hold the command key while it is on. */
  function SyntheticCommandDown(kb: Kb, code: string, ck: string, name: string): (r: Kb)
    requires kb.LayerConsistent()
    ensures r.LayerConsistent()
    ensures r.pressed - {ck} == kb.pressed - {ck}
    ensures ck in r.pressed <==> !IsOn(kb, code)
    ensures IsOn(r, code) == !IsOn(kb, code)
    ensures forall c :: c != code ==> IsOn(r, c) == IsOn(kb, c)
    ensures r.pressedKeyCode == kb.pressedKeyCode
  {
    var (t, on) := ToggleCommandBtn(kb, code, None);
    if !on then CallOwn(t.(pressed := t.pressed - {ck}), name, Some(false))
    else t.(pressed := t.pressed + {ck})
  }

  /**
   * `handleCommandBtnUp(e)`: only a real key release acts: the toggle goes off, the command
   * key is released and the key's own method is called with false.
   */
  function CommandBtnUp(cfg: Config, kb: Kb, ev: Event): (r: Kb)
    requires cfg.Valid() && ev.code in cfg.keys && cfg.keys[ev.code].isCommand
    requires kb.LayerConsistent()
    ensures r.LayerConsistent()
    ensures !ev.isTrusted ==> r == kb
    ensures ev.isTrusted ==>
              && r.pressed == kb.pressed - {CommandKeyOf(cfg, ev.code)}
              && !IsOn(r, ev.code)
              && (forall c :: c != ev.code ==> IsOn(r, c) == IsOn(kb, c))
  {
    if ev.isTrusted then
      var t := ToggleCommandBtn(kb, ev.code, Some(false)).0;
      CallOwn(t.(pressed := t.pressed - {CommandKeyOf(cfg, ev.code)}), MethodName(ev.code), Some(false))
    else
      kb
  }

  /** A real press and release of a command key leaves the other held command keys as they were and the key off. */
  lemma CommandPressRelease(cfg: Config, kb: Kb, code: string)
    requires cfg.Valid() && code in cfg.keys && cfg.keys[code].isCommand && kb.LayerConsistent()
    ensures var ev := Event(code, true, false);
            var r := CommandBtnUp(cfg, CommandBtnDown(cfg, kb, ev), ev);
            r.pressed == kb.pressed - {CommandKeyOf(cfg, code)} && !IsOn(r, code)
  {
  }

  /** Two synthetic presses of a command key (two clicks) restore its toggle and whether its command key is held. */
  lemma CommandClickTwice(cfg: Config, kb: Kb, code: string)
    requires cfg.Valid() && code in cfg.keys && cfg.keys[code].isCommand && kb.LayerConsistent()
    ensures var ev := Event(code, false, false);
            var r := CommandBtnDown(cfg, CommandBtnDown(cfg, kb, ev), ev);
            && IsOn(r, code) == IsOn(kb, code)
            && r.pressed - {CommandKeyOf(cfg, code)} == kb.pressed - {CommandKeyOf(cfg, code)}
            && (CommandKeyOf(cfg, code) in r.pressed <==> IsOn(kb, code))
  {
  }

  /** The loop of `clearCommandKeys` over `codes`: each key's method gets false and its toggle goes off. */
  function ClearFrom(kb: Kb, codes: seq<string>): (r: Kb)
    requires kb.LayerConsistent()
    requires forall i :: 0 <= i < |codes| ==> |codes[i]| > 0
    ensures r.LayerConsistent()
    ensures forall i :: 0 <= i < |codes| ==> !IsOn(r, codes[i])
    ensures forall c :: c !in codes ==> IsOn(r, c) == IsOn(kb, c)
    ensures r.pressed == kb.pressed && r.pressedKeyCode == kb.pressedKeyCode
    decreases |codes|
  {
    if |codes| == 0 then
      kb
    else
      var called := CallOwn(kb, MethodName(codes[0]), Some(false));
      ClearFrom(ToggleCommandBtn(called, codes[0], Some(false)).0, codes[1..])
  }

  /**
   * `clearCommandKeys(e)`: for a synthetic event (or none) nothing stays held and every
   * command key is switched off; a real event leaves everything as it is.
   */
  function ClearCommandKeys(cfg: Config, kb: Kb, isTrusted: bool): (r: Kb)
    requires cfg.Valid() && kb.LayerConsistent()
    ensures r.LayerConsistent() && r.pressedKeyCode == kb.pressedKeyCode
    ensures isTrusted ==> r == kb
    ensures !isTrusted ==> r.pressed == {} && forall i :: 0 <= i < |cfg.commandCodes| ==> !IsOn(r, cfg.commandCodes[i])
    ensures !isTrusted ==> forall c :: c in cfg.keys && cfg.keys[c].isCommand ==> !IsOn(r, c)
  {
    if isTrusted then kb else ClearFrom(kb.(pressed := {}), cfg.commandCodes)
  }

  /** What `handleHotkey` compares against the hotkey sets: the held command keys, plus the code of a key that is not one. */
  function CompareSet(cfg: Config, kb: Kb, code: string): (s: set<string>)
    requires code in cfg.keys
    ensures cfg.keys[code].isCommand ==> s == kb.pressed
    ensures !cfg.keys[code].isCommand ==> s == kb.pressed + {code}
  {
    if cfg.keys[code].isCommand then kb.pressed else kb.pressed + {code}
  }

  /** The command key a hotkey must contain when the last key is a command key. */
  function RequiredKey(cfg: Config, code: string): Option<string>
    requires code in cfg.keys && Parsed(cfg.keys[code])
  {
    if cfg.keys[code].isCommand then Some(CommandKeyOf(cfg, code)) else None
  }

  predicate Eligible(h: Hotkey, required: Option<string>) {
    required.None? || required.value in h.keys
  }

  /** The first hotkey from `i` on that is eligible and whose set equals `compare`. */
  function FirstHotkey(hotkeys: seq<Hotkey>, compare: set<string>, required: Option<string>, i: nat): (r: Option<nat>)
    requires i <= |hotkeys|
    ensures r.Some? ==> i <= r.value < |hotkeys| && Eligible(hotkeys[r.value], required) && AreSetsEqual(compare, hotkeys[r.value].keys)
    ensures forall j :: i <= j < |hotkeys| && (r.None? || j < r.value) ==>
              !(Eligible(hotkeys[j], required) && AreSetsEqual(compare, hotkeys[j].keys))
    decreases |hotkeys| - i
  {
    if i == |hotkeys| then None
    else if Eligible(hotkeys[i], required) && AreSetsEqual(compare, hotkeys[i].keys) then Some(i)
    else FirstHotkey(hotkeys, compare, required, i + 1)
  }

  /** Some hotkey fires for the key `code` in state `kb`: the search of the table finds one. */
  predicate Fires(cfg: Config, kb: Kb, code: string)
    requires code in cfg.keys && Parsed(cfg.keys[code])
  {
    FirstHotkey(cfg.hotkeys, CompareSet(cfg, kb, code), RequiredKey(cfg, code), 0).Some?
  }

  /**
   * `handleHotkey(e)`: the first eligible hotkey whose set equals the compare set fires: the
   * text area's and the keyboard's methods of that name are called and true is returned.
   */
  function HandleHotkey(cfg: Config, kb: Kb, code: string): (r: (bool, Reaction))
    requires cfg.Valid() && code in cfg.keys && kb.LayerConsistent()
    ensures r.0 <==> Fires(cfg, kb, code)
    ensures !r.0 ==> r.1 == Reaction(kb, [])
    ensures r.1.kb.LayerConsistent()
    ensures r.1.kb.pressed == kb.pressed && r.1.kb.toggles == kb.toggles && r.1.kb.pressedKeyCode == kb.pressedKeyCode
    ensures forall k :: 0 <= k < |r.1.effects| ==> r.1.effects[k].TextAreaCall?
    ensures r.0 ==>
              exists i :: 0 <= i < |cfg.hotkeys|
                && Eligible(cfg.hotkeys[i], RequiredKey(cfg, code)) && AreSetsEqual(CompareSet(cfg, kb, code), cfg.hotkeys[i].keys)
                && (forall j :: 0 <= j < i ==>
                      !(Eligible(cfg.hotkeys[j], RequiredKey(cfg, code)) && AreSetsEqual(CompareSet(cfg, kb, code), cfg.hotkeys[j].keys)))
                && r.1 == Reaction(CallOwn(kb, cfg.hotkeys[i].name, None), [TextAreaCall(cfg.hotkeys[i].name)])
  {
    var found := FirstHotkey(cfg.hotkeys, CompareSet(cfg, kb, code), RequiredKey(cfg, code), 0);
    match found
    case None => (false, Reaction(kb, []))
    case Some(i) =>
      var name := cfg.hotkeys[i].name;
      (true, Reaction(CallOwn(kb, name, None), [TextAreaCall(name)]))
  }

  /** The search misses nothing: a hotkey fires exactly when some eligible entry's set equals the compare set. */
  lemma FiresIffSomeHotkey(cfg: Config, kb: Kb, code: string)
    requires cfg.Valid() && code in cfg.keys
    ensures Fires(cfg, kb, code) <==>
              exists i :: 0 <= i < |cfg.hotkeys| && Eligible(cfg.hotkeys[i], RequiredKey(cfg, code))
                && AreSetsEqual(CompareSet(cfg, kb, code), cfg.hotkeys[i].keys)
  {
    var found := FirstHotkey(cfg.hotkeys, CompareSet(cfg, kb, code), RequiredKey(cfg, code), 0);
    if found.Some? {
      var i := found.value;
      assert Eligible(cfg.hotkeys[i], RequiredKey(cfg, code)) && AreSetsEqual(CompareSet(cfg, kb, code), cfg.hotkeys[i].keys);
    }
  }

  /** Firing is set equality: a hotkey fires exactly when one eligible hotkey's set is the compare set. */
  lemma FiresIffSameSet(cfg: Config, kb: Kb, code: string)
    requires cfg.Valid() && code in cfg.keys
    ensures Fires(cfg, kb, code) <==>
              exists i :: 0 <= i < |cfg.hotkeys| && Eligible(cfg.hotkeys[i], RequiredKey(cfg, code))
                && cfg.hotkeys[i].keys == CompareSet(cfg, kb, code)
  {
    FiresIffSomeHotkey(cfg, kb, code);
    forall i | 0 <= i < |cfg.hotkeys|
      ensures AreSetsEqual(CompareSet(cfg, kb, code), cfg.hotkeys[i].keys) <==> cfg.hotkeys[i].keys == CompareSet(cfg, kb, code)
    {
      AreSetsEqualIsEquality(CompareSet(cfg, kb, code), cfg.hotkeys[i].keys);
    }
  }

  /** The rule of `handleKeyDown` for a key that is not a command key. */
  predicate ProducesInput(heldCommands: nat, isHotkey: bool, isShift: bool) {
    !isHotkey && (heldCommands == 0 || (heldCommands == 1 && isShift))
  }

  /**
   * What a non-command key that completed no hotkey sends to the text area: nothing unless
   * `ProducesInput` holds; then a special key's method, or an ordinary key's character.
   */
  function KeyInput(cfg: Config, kb: Kb, code: string): (effects: seq<Effect>)
    requires cfg.Valid() && code in cfg.keys
    ensures |effects| <= 1
    ensures effects != [] <==> ProducesInput(|kb.pressed|, false, kb.isShift)
    ensures forall k :: 0 <= k < |effects| ==>
              effects[k] == if cfg.keys[code].isSpecial then TextAreaCall(MethodName(code)) else AddCharacter(code)
  {
    if !ProducesInput(|kb.pressed|, false, kb.isShift) then []
    else if cfg.keys[code].isSpecial then [TextAreaCall(MethodName(code))]
    else [AddCharacter(code)]
  }

  /** `handleSpecialBtnDown(e)`: the text area's and the keyboard's methods named after the code are called. */
  function HandleSpecialBtnDown(kb: Kb, code: string): (r: Reaction)
    requires |code| > 0 && kb.LayerConsistent()
    ensures r.kb.LayerConsistent()
    ensures r.kb.pressed == kb.pressed && r.kb.toggles == kb.toggles && r.kb.pressedKeyCode == kb.pressedKeyCode
    ensures r.effects == [TextAreaCall(MethodName(code))]
    ensures r.kb == CallOwn(kb, MethodName(code), None)
    ensures MethodName(code) == "capsLock" ==> r.kb.isCapslock == !kb.isCapslock && r.kb.isShift == kb.isShift
    ensures MethodName(code) !in OwnMethods ==> r.kb == kb
  {
    var name := MethodName(code);
    Reaction(CallOwn(kb, name, None), [TextAreaCall(name)])
  }

  /** The event is dropped: a real event while the text area is unfocused, an unknown code, or a repeat of a non-repeating special key. */
  predicate Ignored(cfg: Config, ev: Event, focused: bool) {
    || (ev.isTrusted && !focused)
    || ev.code !in cfg.keys
    || (ev.repeat && cfg.keys[ev.code].isSpecial && !cfg.keys[ev.code].isRepeatable)
  }

  /**
   * `handleKeyDown(e)`. A command key is held (or toggled), may complete a hotkey, and a
   * completed hotkey releases the command keys. Any other key is matched against the
   * hotkeys first; it reaches the text area only under `ProducesInput`; then the command
   * keys are released (`key.isArrow` is never set, so the release is unconditional).
   */
  function HandleKeyDown(cfg: Config, kb: Kb, ev: Event, focused: bool): (r: Reaction)
    requires cfg.Valid() && kb.LayerConsistent()
    ensures r.kb.LayerConsistent()
    ensures Ignored(cfg, ev, focused) ==> r == Reaction(kb, [])
    ensures !Ignored(cfg, ev, focused) && !cfg.keys[ev.code].isCommand ==>
              (AddCharacter(ev.code) in r.effects <==>
                 !cfg.keys[ev.code].isSpecial && ProducesInput(|kb.pressed|, Fires(cfg, kb, ev.code), kb.isShift))
    ensures !Ignored(cfg, ev, focused) && !cfg.keys[ev.code].isCommand && !ev.isTrusted ==> r.kb.pressed == {}
    ensures !Ignored(cfg, ev, focused) && !cfg.keys[ev.code].isCommand && ev.isTrusted ==> r.kb.pressed == kb.pressed
    ensures !Ignored(cfg, ev, focused) && !cfg.keys[ev.code].isCommand ==>
              && (Fires(cfg, kb, ev.code) ==> r.effects == HandleHotkey(cfg, kb, ev.code).1.effects)
              && (!Fires(cfg, kb, ev.code) ==> r.effects == KeyInput(cfg, kb, ev.code))
    ensures !Ignored(cfg, ev, focused) && cfg.keys[ev.code].isCommand ==>
              var held := CommandBtnDown(cfg, kb, ev);
              && (!Fires(cfg, held, ev.code) ==> r == Reaction(held, []))
              && (Fires(cfg, held, ev.code) && ev.isTrusted ==>
                    r.kb.pressed == kb.pressed + {CommandKeyOf(cfg, ev.code)} && r.kb.toggles == kb.toggles)
              && (Fires(cfg, held, ev.code) && !ev.isTrusted ==>
                    r.kb.pressed == {} && forall i :: 0 <= i < |cfg.commandCodes| ==> !IsOn(r.kb, cfg.commandCodes[i]))
  {
    if Ignored(cfg, ev, focused) then Reaction(kb, [])
    else if cfg.keys[ev.code].isCommand then CommandKeyDown(cfg, kb, ev)
    else OtherKeyDown(cfg, kb, ev)
  }

  /**
   * `handleKeyDown` for a command key: hold or toggle it; a completed hotkey calls its text
   * area method and, for a synthetic event, releases and switches off every command key.
   */
  function CommandKeyDown(cfg: Config, kb: Kb, ev: Event): (r: Reaction)
    requires cfg.Valid() && kb.LayerConsistent() && ev.code in cfg.keys && cfg.keys[ev.code].isCommand
    ensures r.kb.LayerConsistent()
    ensures var held := CommandBtnDown(cfg, kb, ev);
            && (!Fires(cfg, held, ev.code) ==> r == Reaction(held, []))
            && (Fires(cfg, held, ev.code) ==> |r.effects| == 1)
            && (Fires(cfg, held, ev.code) && ev.isTrusted ==>
                  r.kb.pressed == kb.pressed + {CommandKeyOf(cfg, ev.code)} && r.kb.toggles == kb.toggles)
            && (Fires(cfg, held, ev.code) && !ev.isTrusted ==>
                  r.kb.pressed == {} && forall i :: 0 <= i < |cfg.commandCodes| ==> !IsOn(r.kb, cfg.commandCodes[i]))
    ensures forall k :: 0 <= k < |r.effects| ==> r.effects[k].TextAreaCall?
  {
    var held := CommandBtnDown(cfg, kb, ev);
    var (hot, after) := HandleHotkey(cfg, held, ev.code);
    Reaction(if hot then ClearCommandKeys(cfg, after.kb, ev.isTrusted) else after.kb, after.effects)
  }

  /**
   * `handleKeyDown` for any other key: hotkeys first; the key reaches the text area only
   * under `ProducesInput`; then the command keys are released (`key.isArrow` is never set,
   * so the release does not depend on the hotkey).
   */
  function OtherKeyDown(cfg: Config, kb: Kb, ev: Event): (r: Reaction)
    requires cfg.Valid() && kb.LayerConsistent() && ev.code in cfg.keys && !cfg.keys[ev.code].isCommand
    ensures r.kb.LayerConsistent()
    ensures AddCharacter(ev.code) in r.effects <==>
              !cfg.keys[ev.code].isSpecial && ProducesInput(|kb.pressed|, Fires(cfg, kb, ev.code), kb.isShift)
    ensures !ev.isTrusted ==> r.kb.pressed == {}
    ensures ev.isTrusted ==> r.kb.pressed == kb.pressed
    ensures Fires(cfg, kb, ev.code) ==> r.effects == HandleHotkey(cfg, kb, ev.code).1.effects
    ensures !Fires(cfg, kb, ev.code) ==> r.effects == KeyInput(cfg, kb, ev.code)
    ensures ev.isTrusted && !Fires(cfg, kb, ev.code) ==>
              r.kb == if KeyInput(cfg, kb, ev.code) == [TextAreaCall(MethodName(ev.code))]
                      then CallOwn(kb, MethodName(ev.code), None) else kb
  {
    var (hot, after) := HandleHotkey(cfg, kb, ev.code);
    if hot then
      assert AddCharacter(ev.code) !in after.effects;
      Reaction(ClearCommandKeys(cfg, after.kb, ev.isTrusted), after.effects)
    else
      var typed := TypeKey(cfg, kb, ev.code);
      Reaction(ClearCommandKeys(cfg, typed.kb, ev.isTrusted), typed.effects)
  }

  /** The part of `handleKeyDown` after a non-command key completed no hotkey: `KeyInput`, and a special key's own method. */
  function TypeKey(cfg: Config, kb: Kb, code: string): (r: Reaction)
    requires cfg.Valid() && kb.LayerConsistent() && code in cfg.keys
    ensures r.kb.LayerConsistent()
    ensures r.effects == KeyInput(cfg, kb, code)
    ensures r.kb.pressed == kb.pressed
    ensures r.kb == if r.effects == [TextAreaCall(MethodName(code))] then CallOwn(kb, MethodName(code), None) else kb
  {
    if !ProducesInput(|kb.pressed|, false, kb.isShift) then Reaction(kb, [])
    else if cfg.keys[code].isSpecial then HandleSpecialBtnDown(kb, code)
    else Reaction(kb, [AddCharacter(code)])
  }

  /** No eligible hotkey has this key set: `FirstHotkey` finds nothing. */
  predicate Unbound(cfg: Config, kb: Kb, code: string)
    requires cfg.Valid() && code in cfg.keys
  {
    forall i :: 0 <= i < |cfg.hotkeys| ==>
      !(Eligible(cfg.hotkeys[i], RequiredKey(cfg, code)) && cfg.hotkeys[i].keys == CompareSet(cfg, kb, code))
  }

  /**
   * A held command key other than a lone shift keeps every non-command key out of the text
   * area, special keys such as Backspace included: only a completed hotkey acts.
   */
  lemma HeldCommandBlocksInput(cfg: Config, kb: Kb, ev: Event, focused: bool)
    requires cfg.Valid() && kb.LayerConsistent()
    requires !Ignored(cfg, ev, focused) && !cfg.keys[ev.code].isCommand
    requires |kb.pressed| >= 2 || (|kb.pressed| == 1 && !kb.isShift)
    ensures Unbound(cfg, kb, ev.code) ==> HandleKeyDown(cfg, kb, ev, focused).effects == []
    ensures HandleKeyDown(cfg, kb, ev, focused).effects == []
            || exists i :: 0 <= i < |cfg.hotkeys| && HandleKeyDown(cfg, kb, ev, focused).effects == [TextAreaCall(cfg.hotkeys[i].name)]
  {
    FiresIffSameSet(cfg, kb, ev.code);
  }

  /** With nothing held and no hotkey bound to the moment, an ordinary key types its character and nothing else. */
  lemma UnboundKeyTypes(cfg: Config, kb: Kb, ev: Event, focused: bool)
    requires cfg.Valid() && kb.LayerConsistent()
    requires !Ignored(cfg, ev, focused) && !cfg.keys[ev.code].isCommand && !cfg.keys[ev.code].isSpecial
    requires kb.pressed == {} && Unbound(cfg, kb, ev.code)
    ensures HandleKeyDown(cfg, kb, ev, focused).effects == [AddCharacter(ev.code)]
  {
    FiresIffSameSet(cfg, kb, ev.code);
  }

  /**
   * A trusted press of the CapsLock key, with nothing held and no hotkey bound, calls the
   * text area's `capsLock` once and flips the keyboard's own caps state.
   */
  lemma CapsLockKeyFlipsCaps(cfg: Config, kb: Kb, ev: Event, focused: bool)
    requires cfg.Valid() && kb.LayerConsistent()
    requires !Ignored(cfg, ev, focused) && !cfg.keys[ev.code].isCommand && cfg.keys[ev.code].isSpecial
    requires MethodName(ev.code) == "capsLock" && ev.isTrusted
    requires kb.pressed == {} && Unbound(cfg, kb, ev.code)
    ensures HandleKeyDown(cfg, kb, ev, focused).effects == [TextAreaCall("capsLock")]
    ensures HandleKeyDown(cfg, kb, ev, focused).kb.isCapslock == !kb.isCapslock
    ensures HandleKeyDown(cfg, kb, ev, focused).kb.isShift == kb.isShift
  {
    FiresIffSameSet(cfg, kb, ev.code);
  }

  /** A completed hotkey runs the first matching entry of the hotkey list, and only it. */
  lemma HotkeyRunsFirstMatch(cfg: Config, kb: Kb, ev: Event, focused: bool, i: nat)
    requires cfg.Valid() && kb.LayerConsistent()
    requires !Ignored(cfg, ev, focused) && !cfg.keys[ev.code].isCommand
    requires i < |cfg.hotkeys| && Eligible(cfg.hotkeys[i], RequiredKey(cfg, ev.code))
    requires cfg.hotkeys[i].keys == CompareSet(cfg, kb, ev.code)
    requires !exists j :: 0 <= j < i && Eligible(cfg.hotkeys[j], RequiredKey(cfg, ev.code))
                                     && cfg.hotkeys[j].keys == CompareSet(cfg, kb, ev.code)
    ensures HandleKeyDown(cfg, kb, ev, focused).effects == [TextAreaCall(cfg.hotkeys[i].name)]
  {
    FiresIffSameSet(cfg, kb, ev.code);
    var found := HandleHotkey(cfg, kb, ev.code);
    var k :| 0 <= k < |cfg.hotkeys|
               && Eligible(cfg.hotkeys[k], RequiredKey(cfg, ev.code)) && AreSetsEqual(CompareSet(cfg, kb, ev.code), cfg.hotkeys[k].keys)
               && (forall j :: 0 <= j < k ==>
                     !(Eligible(cfg.hotkeys[j], RequiredKey(cfg, ev.code)) && AreSetsEqual(CompareSet(cfg, kb, ev.code), cfg.hotkeys[j].keys)))
               && found.1 == Reaction(CallOwn(kb, cfg.hotkeys[k].name, None), [TextAreaCall(cfg.hotkeys[k].name)]);
    AreSetsEqualIsEquality(CompareSet(cfg, kb, ev.code), cfg.hotkeys[k].keys);
    AreSetsEqualIsEquality(CompareSet(cfg, kb, ev.code), cfg.hotkeys[i].keys);
    assert k == i;
  }

  /** `handleKeyUp(e)`: past the same guards as a key press, a command key is released. */
  function HandleKeyUp(cfg: Config, kb: Kb, ev: Event, focused: bool): (r: Kb)
    requires cfg.Valid() && kb.LayerConsistent()
    ensures r.LayerConsistent()
    ensures Ignored(cfg, ev, focused) || !cfg.keys[ev.code].isCommand ==> r == kb
    ensures !Ignored(cfg, ev, focused) && cfg.keys[ev.code].isCommand && ev.isTrusted ==>
              CommandKeyOf(cfg, ev.code) !in r.pressed && !IsOn(r, ev.code)
  {
    if Ignored(cfg, ev, focused) || !cfg.keys[ev.code].isCommand then kb
    else CommandBtnUp(cfg, kb, ev)
  }

  /** `handleWindowBlur()`: nothing pressed with the mouse, no command key held or on, shift released. */
  function HandleWindowBlur(cfg: Config, kb: Kb): (r: Kb)
    requires cfg.Valid() && kb.LayerConsistent()
    ensures r.LayerConsistent()
    ensures r.pressedKeyCode == "" && !r.isShift && r.pressed == {}
    ensures forall i :: 0 <= i < |cfg.commandCodes| ==> !IsOn(r, cfg.commandCodes[i])
    ensures forall c :: c in cfg.keys && cfg.keys[c].isCommand ==> !IsOn(r, c)
  {
    SetShift(ClearCommandKeys(cfg, kb.(pressedKeyCode := ""), false), false)
  }
}

=== FILE: language.dfy ===
/**
 * The EN/RU language controller (src/js/languageController.js, and its copy without key sets,
 * src/js/language-controller.js). `localStorage` is a single optional stored string plus a
 * count of writes; the property named by `LanguageController.STORAGE` is the only one used.
 */
module Language {
  import opened Wrappers

  const EN := "en"
  const RU := "ru"
  const DEFAULT := EN

  /** The JavaScript values the `_language` field can hold. */
  datatype JsValue = Undefined | Null | Str(s: string)

  /** `String(v)`: what `localStorage.setItem` stores and what a property lookup uses as its key. */
  function Stringify(v: JsValue): (s: string)
    ensures v.Str? ==> s == v.s
    ensures v == Null ==> s == "null"
  {
    match v
    case Undefined => "undefined"
    case Null => "null"
    case Str(s) => s
  }

  /** The controller's `_language` and the storage it writes to. */
  datatype Controller = Controller(language: JsValue, stored: Option<string>, saves: nat)

  /** The `language` setter: a different value is taken and saved; the same value changes nothing. */
  function SetLanguage(c: Controller, v: JsValue): (r: Controller)
    ensures r.language == v
    ensures c.language == v ==> r == c
    ensures c.language != v ==> r.stored == Some(Stringify(v)) && r.saves == c.saves + 1
  {
    if c.language != v then Controller(v, Some(Stringify(v)), c.saves + 1) else c
  }

  /** `_load()`: the stored string, or `null` when nothing is stored, goes through the setter; true when something was stored. */
  function Load(c: Controller): (r: (Controller, bool))
    ensures r.1 <==> c.stored.Some?
    ensures r.0.language == if c.stored.Some? then Str(c.stored.value) else Null
  {
    var got := if c.stored.Some? then Str(c.stored.value) else Null;
    var loaded := SetLanguage(c, got);
    (loaded, loaded.language != Null)
  }

  /**
   * The constructor, starting from `_language` undefined and whatever storage holds: a stored
   * language is taken over (and written back), otherwise `null` is written and then the
   * default 'en' replaces it.
   */
  function Create(stored: Option<string>): (c: Controller)
    ensures stored.Some? ==> c.language == Str(stored.value)
    ensures stored.None? ==> c.language == Str(DEFAULT)
    ensures c.stored == Some(Stringify(c.language))
    ensures c.saves == if stored.Some? then 1 else 2
  {
    var (loaded, found) := Load(Controller(Undefined, stored, 0));
    if !found then SetLanguage(loaded, Str(DEFAULT)) else loaded
  }

  /** `toggle()`: 'en' becomes 'ru', anything else becomes 'en', through the setter. */
  function Toggle(c: Controller): (r: Controller)
    ensures r.language == Str(EN) || r.language == Str(RU)
    ensures r.language == Str(RU) <==> c.language == Str(EN)
    ensures r.language != c.language ==> r.stored == Some(Stringify(r.language)) && r.saves == c.saves + 1
    ensures r.language == c.language ==> r == c
  {
    SetLanguage(c, if c.language == Str(EN) then Str(RU) else Str(EN))
  }

  /** Toggling twice from 'en' or 'ru' returns to it. */
  lemma ToggleTwice(c: Controller)
    requires c.language == Str(EN) || c.language == Str(RU)
    ensures Toggle(Toggle(c)).language == c.language
  {
  }

  /** Setting the language it already has neither changes nor saves anything. */
  lemma SetSameIsNoOp(c: Controller, v: JsValue)
    requires v == c.language
    ensures SetLanguage(c, v) == c
  {
  }

  /** A controller from `Create` has saved exactly the language it holds. */
  lemma CreatedIsSaved(stored: Option<string>)
    ensures var c := Create(stored);
            c.stored.Some? && Load(c).0 == SetLanguage(c, Str(c.stored.value)) && Load(c).0 == c
  {
  }

  /** The `keySet` getter: `keySets[language]`, or undefined when there is no such set. */
  function KeySet<V>(c: Controller, keySets: map<string, V>): (r: Option<V>)
    ensures r.Some? <==> Stringify(c.language) in keySets
    ensures r.Some? ==> r.value == keySets[Stringify(c.language)]
  {
    var k := Stringify(c.language);
    if k in keySets then Some(keySets[k]) else None
  }

  /** `getKeyValues(code)`: for every language, that language's entry for `code`, or undefined. */
  function GetKeyValues<V>(keySets: map<string, map<string, V>>, code: string): (r: map<string, Option<V>>)
    ensures r.Keys == keySets.Keys
    ensures forall l :: l in r ==> (r[l].Some? <==> code in keySets[l])
    ensures forall l :: l in r && r[l].Some? ==> r[l].value == keySets[l][code]
  {
    map l | l in keySets :: if code in keySets[l] then Some(keySets[l][code]) else None
  }

  /**
   * The current key set and the per-language key values agree: looking `code` up in
   * `keySet` gives what `getKeyValues(code)` lists under the current language.
   */
  lemma KeySetAgreesWithKeyValues<V>(c: Controller, keySets: map<string, map<string, V>>, code: string)
    requires KeySet(c, keySets).Some?
    ensures var values := GetKeyValues(keySets, code);
            var current := KeySet(c, keySets).value;
            && Stringify(c.language) in values
            && (values[Stringify(c.language)].Some? <==> code in current)
            && (code in current ==> values[Stringify(c.language)].value == current[code])
  {
  }
}

=== FILE: rows.dfy ===
/**
 * Row index of the text area (src/js/text-area.js:103-142): newline positions of the buffer,
 * the caret spans of the visual rows the browser reports, and the row holding the caret.
 *
 * The visual rows come from the browser's hard-wrapping of the textarea and are an input
 * here; `IsLayoutOf` states what they must be: the buffer cut at its newlines (which the
 * rows do not contain) and at soft-wrap points (which consume no character).
 */
module Rows {

  /** Caret offsets `start..end`, both inclusive, that belong to one visual row. */
  datatype Span = Span(start: int, end: int)

  predicate Covers(s: Span, c: int) {
    s.start <= c <= s.end
  }

  function FirstIndexOf(s: string, ch: char): (k: nat)
    requires ch in s
    ensures k < |s| && s[k] == ch
    ensures forall j :: 0 <= j < k ==> s[j] != ch
  {
    if s[0] == ch then 0 else 1 + FirstIndexOf(s[1..], ch)
  }

  /** `s.split('\n')`: the newline-free pieces between newlines, in order; never empty. */
  function SplitLines(s: string): (pieces: seq<string>)
    ensures |pieces| >= 1
    ensures forall i :: 0 <= i < |pieces| ==> '\n' !in pieces[i]
    decreases |s|
  {
    if '\n' in s then
      var k := FirstIndexOf(s, '\n');
      assert '\n' !in s[..k] by {
        forall j | 0 <= j < k ensures s[..k][j] != '\n' { }
      }
      [s[..k]] + SplitLines(s[k + 1..])
    else
      [s]
  }

  /** Pieces glued back together with a newline between neighbours. */
  function JoinLines(pieces: seq<string>): (s: string)
    requires |pieces| >= 1
  {
    if |pieces| == 1 then pieces[0] else pieces[0] + "\n" + JoinLines(pieces[1..])
  }

  /** Splitting at newlines loses nothing: joining the pieces gives the buffer back. */
  lemma {:induction false} JoinSplitLines(s: string)
    ensures JoinLines(SplitLines(s)) == s
    decreases |s|
  {
    if '\n' in s {
      var k := FirstIndexOf(s, '\n');
      JoinSplitLines(s[k + 1..]);
      assert SplitLines(s)[1..] == SplitLines(s[k + 1..]);
      assert s == s[..k] + "\n" + s[k + 1..];
    }
  }

  /**
   * The map step of `_getEolsPositions`: piece `i` yields its own length plus the lengths of
   * the pieces before it plus `i`, i.e. the offset of the newline after it; `base` carries
   * that running sum. The piece after the last newline is dropped (`slice(0, -1)`).
   */
  function PieceEnds(pieces: seq<string>, base: int): (ends: seq<int>)
    decreases |pieces|
  {
    if |pieces| <= 1 then [] else [base + |pieces[0]|] + PieceEnds(pieces[1..], base + |pieces[0]| + 1)
  }

  /** `_getEolsPositions()`. */
  function EolsPositions(text: string): (eols: seq<int>) {
    PieceEnds(SplitLines(text), 0)
  }

  /** `r` lists, in ascending order, exactly the offsets of the newlines of `text`. */
  predicate NewlineIndices(text: string, r: seq<int>) {
    && EndsSorted(r)
    && (forall i :: 0 <= i < |r| ==> 0 <= r[i] < |text| && text[r[i]] == '\n')
    && (forall k :: 0 <= k < |text| && text[k] == '\n' ==> k in r)
  }

  predicate EndsSorted(r: seq<int>) {
    forall i, j :: 0 <= i < j < |r| ==> r[i] < r[j]
  }

  predicate EndsAreNewlines(s: string, base: int, r: seq<int>) {
    forall i :: 0 <= i < |r| ==> base <= r[i] < base + |s| && s[r[i] - base] == '\n'
  }

  predicate EndsComplete(s: string, base: int, r: seq<int>) {
    forall q :: 0 <= q < |s| && s[q] == '\n' ==> base + q in r
  }

  /** Every piece is free of newlines, as the pieces of `SplitLines` are. */
  predicate NewlineFree(pieces: seq<string>) {
    forall i :: 0 <= i < |pieces| ==> '\n' !in pieces[i]
  }

  lemma {:induction false} PieceEndsSorted(pieces: seq<string>, base: int)
    ensures EndsSorted(PieceEnds(pieces, base))
    ensures forall i :: 0 <= i < |PieceEnds(pieces, base)| ==> base <= PieceEnds(pieces, base)[i]
    decreases |pieces|
  {
    if |pieces| > 1 {
      PieceEndsSorted(pieces[1..], base + |pieces[0]| + 1);
      SortedStep(base + |pieces[0]|, PieceEnds(pieces[1..], base + |pieces[0]| + 1));
    }
  }

  lemma SortedStep(head: int, tail: seq<int>)
    requires EndsSorted(tail)
    requires forall i :: 0 <= i < |tail| ==> head < tail[i]
    ensures EndsSorted([head] + tail)
  {
    var r := [head] + tail;
    forall i, j | 0 <= i < j < |r| ensures r[i] < r[j] {
      assert r[j] == tail[j - 1];
      if i > 0 {
        assert r[i] == tail[i - 1];
      }
    }
  }

  lemma {:induction false} PieceEndsAreNewlines(pieces: seq<string>, base: int)
    requires |pieces| >= 1 && NewlineFree(pieces)
    ensures EndsAreNewlines(JoinLines(pieces), base, PieceEnds(pieces, base))
    decreases |pieces|
  {
    if |pieces| == 1 {
      NoNewlineAnywhere(pieces[0]);
    } else {
      var k := |pieces[0]|;
      var tail := PieceEnds(pieces[1..], base + k + 1);
      PieceEndsAreNewlines(pieces[1..], base + k + 1);
      JoinStep(pieces);
      NewlinesStep(JoinLines(pieces), JoinLines(pieces[1..]), base, k, tail);
    }
  }

  lemma {:induction false} PieceEndsComplete(pieces: seq<string>, base: int)
    requires |pieces| >= 1 && NewlineFree(pieces)
    ensures EndsComplete(JoinLines(pieces), base, PieceEnds(pieces, base))
    decreases |pieces|
  {
    if |pieces| == 1 {
      NoNewlineAnywhere(pieces[0]);
    } else {
      var k := |pieces[0]|;
      var tail := PieceEnds(pieces[1..], base + k + 1);
      PieceEndsComplete(pieces[1..], base + k + 1);
      JoinStep(pieces);
      CompleteStep(JoinLines(pieces), JoinLines(pieces[1..]), base, k, tail);
    }
  }

  /** The first piece, its newline, then the rest. */
  lemma JoinStep(pieces: seq<string>)
    requires |pieces| > 1 && NewlineFree(pieces)
    ensures var s := JoinLines(pieces);
            var k := |pieces[0]|;
            && k < |s| && s[k] == '\n'
            && (forall j :: 0 <= j < k ==> s[j] != '\n')
            && s[k + 1..] == JoinLines(pieces[1..])
            && NewlineFree(pieces[1..])
  {
    NoNewlineAnywhere(pieces[0]);
    var s := JoinLines(pieces);
    assert s == pieces[0] + "\n" + JoinLines(pieces[1..]);
    assert forall j :: 0 <= j < |pieces[0]| ==> s[j] == pieces[0][j];
  }

  lemma NewlinesStep(s: string, rest: string, base: int, k: nat, tail: seq<int>)
    requires k < |s| && s[k] == '\n' && rest == s[k + 1..]
    requires EndsAreNewlines(rest, base + k + 1, tail)
    ensures EndsAreNewlines(s, base, [base + k] + tail)
  {
    var r := [base + k] + tail;
    forall i | 0 <= i < |r| ensures base <= r[i] < base + |s| && s[r[i] - base] == '\n' {
      if i > 0 {
        var x := tail[i - 1] - (base + k + 1);
        assert rest[x] == '\n';
        assert r[i] - base == k + 1 + x;
      }
    }
  }

  lemma CompleteStep(s: string, rest: string, base: int, k: nat, tail: seq<int>)
    requires k < |s| && s[k] == '\n' && rest == s[k + 1..]
    requires forall j :: 0 <= j < k ==> s[j] != '\n'
    requires EndsComplete(rest, base + k + 1, tail)
    ensures EndsComplete(s, base, [base + k] + tail)
  {
    var r := [base + k] + tail;
    forall q | 0 <= q < |s| && s[q] == '\n' ensures base + q in r {
      if q > k {
        assert rest[q - k - 1] == s[q];
        var i :| 0 <= i < |tail| && tail[i] == base + k + 1 + (q - k - 1);
        assert r[i + 1] == tail[i];
      }
    }
  }

  lemma NoNewlineAnywhere(s: string)
    requires '\n' !in s
    ensures forall q :: 0 <= q < |s| ==> s[q] != '\n'
  {
  }

  /** `_getEolsPositions()` returns exactly the ascending offsets of the newlines. */
  lemma EolsPositionsAreNewlineIndices(text: string)
    ensures NewlineIndices(text, EolsPositions(text))
  {
    JoinSplitLines(text);
    PieceEndsAreNewlines(SplitLines(text), 0);
    PieceEndsComplete(SplitLines(text), 0);
    PieceEndsSorted(SplitLines(text), 0);
    assert forall q :: 0 <= q < |text| ==> text[q - 0] == text[q];
  }

  /** A row end is bumped exactly at the offsets of the buffer's newlines. */
  lemma FoundIffNewline(text: string, k: int)
    ensures Found(EolsPositions(text), k, false) <==> 0 <= k < |text| && text[k] == '\n'
  {
    EolsPositionsAreNewlineIndices(text);
  }

  /**
   * `rows` lay out `text[at..]` as the browser's hard wrapping reports it: every row is
   * newline-free text copied from the buffer in order, and consecutive rows are separated
   * either by a newline of the buffer (a hard break) or by nothing at all (a soft wrap, which
   * splits a line between two non-empty rows).
   */
  predicate LayoutFrom(rows: seq<string>, text: string, at: nat)
    decreases |rows|
  {
    && |rows| >= 1
    && '\n' !in rows[0]
    && at + |rows[0]| <= |text|
    && text[at..at + |rows[0]|] == rows[0]
    && if |rows| == 1 then
         at + |rows[0]| == |text|
       else
         var k := at + |rows[0]|;
         || (k < |text| && text[k] == '\n' && LayoutFrom(rows[1..], text, k + 1))
         || (|rows[0]| > 0 && |rows[1]| > 0 && LayoutFrom(rows[1..], text, k))
  }

  predicate IsLayoutOf(rows: seq<string>, text: string) {
    LayoutFrom(rows, text, 0)
  }

  /** Newline-free pieces joined by newlines are laid out by the pieces themselves. */
  lemma {:induction false} PiecesAreLayout(pieces: seq<string>, text: string, at: nat)
    requires |pieces| >= 1 && NewlineFree(pieces)
    requires at <= |text| && text[at..] == JoinLines(pieces)
    ensures LayoutFrom(pieces, text, at)
    decreases |pieces|
  {
    if |pieces| == 1 {
      assert text[at..at + |pieces[0]|] == text[at..];
    } else {
      JoinStep(pieces);
      HardBreakAfterHead(pieces, text, at);
      PiecesAreLayout(pieces[1..], text, at + |pieces[0]| + 1);
      LayoutHardBreak(pieces, text, at);
    }
  }

  lemma HardBreakAfterHead(pieces: seq<string>, text: string, at: nat)
    requires |pieces| > 1 && at <= |text| && text[at..] == JoinLines(pieces)
    requires var s := JoinLines(pieces);
             |pieces[0]| < |s| && s[|pieces[0]|] == '\n' && s[|pieces[0]| + 1..] == JoinLines(pieces[1..])
    ensures at + |pieces[0]| < |text| && text[at + |pieces[0]|] == '\n'
    ensures text[at + |pieces[0]| + 1..] == JoinLines(pieces[1..])
    ensures text[at..at + |pieces[0]|] == pieces[0]
  {
    var s := JoinLines(pieces);
    var k := |pieces[0]|;
    assert text[at + k] == s[k];
    assert text[at + k + 1..] == s[k + 1..];
    assert s == pieces[0] + "\n" + JoinLines(pieces[1..]);
    assert text[at..at + k] == s[..k];
  }

  lemma LayoutHardBreak(pieces: seq<string>, text: string, at: nat)
    requires |pieces| > 1 && NewlineFree(pieces)
    requires at + |pieces[0]| < |text| && text[at + |pieces[0]|] == '\n'
    requires text[at..at + |pieces[0]|] == pieces[0]
    requires LayoutFrom(pieces[1..], text, at + |pieces[0]| + 1)
    ensures LayoutFrom(pieces, text, at)
  {
  }

  /** Without soft wraps the rows are just the buffer's lines. */
  lemma LinesAreLayoutOf(text: string)
    ensures IsLayoutOf(SplitLines(text), text)
  {
    JoinSplitLines(text);
    PiecesAreLayout(SplitLines(text), text, 0);
  }

  /**
   * Whether `eolsPositions.find((v) => v === target)` is truthy. `find` returns the matching
   * value itself, so as written (`zeroFalsy`) a newline at offset 0 is never recognised.
   */
  predicate Found(eols: seq<int>, target: int, zeroFalsy: bool) {
    target in eols && !(zeroFalsy && target == 0)
  }

  /**
   * The map of `_getRowsPositions` from the row whose first offset is `last` on. A row that is
   * not the last one ends on its last character, one further when the next offset holds a
   * newline, which the next row then skips.
   */
  function Place(eols: seq<int>, rows: seq<string>, last: int, zeroFalsy: bool): (spans: seq<Span>)
    ensures |spans| == |rows|
    decreases |rows|
  {
    if |rows| == 0 then
      []
    else
      var end := last + |rows[0]| - (if |rows| == 1 then 0 else 1);
      var bump := Found(eols, end + 1, zeroFalsy);
      [Span(last, if bump then end + 1 else end)]
        + Place(eols, rows[1..], last + (if bump then 1 else 0) + |rows[0]|, zeroFalsy)
  }

  /** `_getRowsPositions(rows)` exactly as written, with the falsy-zero `find` test. */
  function RowsPositionsAsWritten(text: string, rows: seq<string>): (spans: seq<Span>) {
    Place(EolsPositions(text), rows, 0, true)
  }

  /** `_getRowsPositions(rows)` with the newline test meaning "is a newline offset". */
  function RowsPositions(text: string, rows: seq<string>): (spans: seq<Span>) {
    Place(EolsPositions(text), rows, 0, false)
  }

  /**
   * The spans tile the caret offsets `0..len`: the first starts at 0, each later one starts one
   * past the end of the one before, none is empty and the last ends at `len`.
   */
  predicate Tiles(spans: seq<Span>, len: int) {
    && |spans| >= 1
    && spans[0].start == 0
    && spans[|spans| - 1].end == len
    && (forall i :: 0 <= i < |spans| ==> spans[i].start <= spans[i].end)
    && (forall i :: 0 < i < |spans| ==> spans[i].start == spans[i - 1].end + 1)
  }

  /** Each span starts on its row's text in the buffer. */
  predicate SpansOnRowText(spans: seq<Span>, rows: seq<string>, text: string)
    requires |spans| == |rows|
  {
    forall i :: 0 <= i < |spans| ==>
      && 0 <= spans[i].start
      && spans[i].start + |rows[i]| <= |text|
      && text[spans[i].start..spans[i].start + |rows[i]|] == rows[i]
  }

  /** A row other than the last ends on its newline after a hard break and on its last character before a soft wrap. */
  predicate SpansEndAtBreaks(spans: seq<Span>, rows: seq<string>, text: string)
    requires |spans| == |rows|
  {
    forall i :: 0 <= i < |spans| - 1 ==>
      && 0 <= spans[i].start + |rows[i]| < |text|
      && spans[i].end == spans[i].start + |rows[i]| - (if text[spans[i].start + |rows[i]|] == '\n' then 0 else 1)
  }

  predicate SpansMatchRows(spans: seq<Span>, rows: seq<string>, text: string)
    requires |spans| == |rows| >= 1
  {
    && SpansOnRowText(spans, rows, text)
    && SpansEndAtBreaks(spans, rows, text)
    && spans[|spans| - 1].end == spans[|spans| - 1].start + |rows[|rows| - 1]|
  }

  /** `spans` tile the caret offsets `at..|text|` along `rows`. */
  predicate PlacedFrom(spans: seq<Span>, rows: seq<string>, text: string, at: int) {
    && |spans| == |rows| >= 1
    && spans[0].start == at
    && spans[|spans| - 1].end == |text|
    && (forall i :: 0 <= i < |spans| ==> at <= spans[i].start <= spans[i].end)
    && (forall i :: 0 < i < |spans| ==> spans[i].start == spans[i - 1].end + 1)
    && SpansMatchRows(spans, rows, text)
  }

  /** Where the row after the first one starts: past the newline on a hard break, right after the text on a soft wrap. */
  function NextRowStart(rows: seq<string>, text: string, at: nat): (next: nat)
    requires |rows| >= 1
  {
    var k := at + |rows[0]|;
    if k < |text| && text[k] == '\n' then k + 1 else k
  }

  lemma {:induction false} PlaceFollowsLayout(text: string, eols: seq<int>, rows: seq<string>, at: nat)
    requires NewlineIndices(text, eols)
    requires LayoutFrom(rows, text, at)
    ensures PlacedFrom(Place(eols, rows, at, false), rows, text, at)
    decreases |rows|
  {
    if |rows| == 1 {
      PlaceLastRow(text, eols, rows, at);
    } else {
      var next := NextRowStart(rows, text, at);
      PlaceHead(text, eols, rows, at);
      PlaceFollowsLayout(text, eols, rows[1..], next);
      PlacedCons(Span(at, next - 1), Place(eols, rows[1..], next, false), rows, text, at);
    }
  }

  lemma PlaceLastRow(text: string, eols: seq<int>, rows: seq<string>, at: nat)
    requires NewlineIndices(text, eols)
    requires LayoutFrom(rows, text, at) && |rows| == 1
    ensures PlacedFrom(Place(eols, rows, at, false), rows, text, at)
  {
    assert !Found(eols, at + |rows[0]| + 1, false);
  }

  /** The first span of a layout, and the layout of the remaining rows. */
  lemma PlaceHead(text: string, eols: seq<int>, rows: seq<string>, at: nat)
    requires NewlineIndices(text, eols)
    requires LayoutFrom(rows, text, at) && |rows| > 1
    ensures var next := NextRowStart(rows, text, at);
            && at < next <= |text|
            && (next == at + |rows[0]| ==> |rows[0]| > 0)
            && LayoutFrom(rows[1..], text, next)
            && Place(eols, rows, at, false) == [Span(at, next - 1)] + Place(eols, rows[1..], next, false)
  {
    var k := at + |rows[0]|;
    if k < |text| && text[k] == '\n' {
      assert Found(eols, k, false);
    } else {
      assert LayoutFrom(rows[1..], text, k);
      assert !Found(eols, k, false);
    }
  }

  lemma PlacedCons(head: Span, tail: seq<Span>, rows: seq<string>, text: string, at: nat)
    requires |rows| > 1 && LayoutFrom(rows, text, at)
    requires var next := NextRowStart(rows, text, at);
             && head == Span(at, next - 1)
             && at < next
             && (next == at + |rows[0]| ==> |rows[0]| > 0)
             && PlacedFrom(tail, rows[1..], text, next)
    ensures PlacedFrom([head] + tail, rows, text, at)
  {
    var next := NextRowStart(rows, text, at);
    ConsShape(head, tail, next, |text|);
    ConsText(head, tail, rows, text, next);
  }

  lemma ConsShape(head: Span, tail: seq<Span>, next: int, len: int)
    requires head.start <= head.end && head.end == next - 1
    requires |tail| >= 1 && tail[0].start == next && tail[|tail| - 1].end == len
    requires forall i :: 0 <= i < |tail| ==> next <= tail[i].start <= tail[i].end
    requires forall i :: 0 < i < |tail| ==> tail[i].start == tail[i - 1].end + 1
    ensures var spans := [head] + tail;
            && spans[|spans| - 1].end == len
            && (forall i :: 0 <= i < |spans| ==> head.start <= spans[i].start <= spans[i].end)
            && (forall i :: 0 < i < |spans| ==> spans[i].start == spans[i - 1].end + 1)
  {
    var spans := [head] + tail;
    forall i | 0 < i < |spans| ensures spans[i] == tail[i - 1] { }
  }

  lemma ConsText(head: Span, tail: seq<Span>, rows: seq<string>, text: string, next: nat)
    requires |rows| > 1 && |tail| == |rows| - 1
    requires 0 <= head.start && head.start + |rows[0]| <= |text|
    requires text[head.start..head.start + |rows[0]|] == rows[0]
    requires next == NextRowStart(rows, text, head.start) && head.end == next - 1
    requires head.start + |rows[0]| < |text|
    requires SpansMatchRows(tail, rows[1..], text)
    ensures SpansMatchRows([head] + tail, rows, text)
  {
    ConsOnText(head, tail, rows, text);
    ConsEnds(head, tail, rows, text, next);
  }

  lemma ConsOnText(head: Span, tail: seq<Span>, rows: seq<string>, text: string)
    requires |rows| > 1 && |tail| == |rows| - 1
    requires 0 <= head.start && head.start + |rows[0]| <= |text|
    requires text[head.start..head.start + |rows[0]|] == rows[0]
    requires SpansOnRowText(tail, rows[1..], text)
    ensures SpansOnRowText([head] + tail, rows, text)
  {
    var spans := [head] + tail;
    forall i | 0 < i < |spans| ensures spans[i] == tail[i - 1] && rows[i] == rows[1..][i - 1] { }
  }

  lemma ConsEnds(head: Span, tail: seq<Span>, rows: seq<string>, text: string, next: nat)
    requires |rows| > 1 && |tail| == |rows| - 1
    requires 0 <= head.start && head.start + |rows[0]| < |text|
    requires next == NextRowStart(rows, text, head.start) && head.end == next - 1
    requires SpansEndAtBreaks(tail, rows[1..], text)
    ensures SpansEndAtBreaks([head] + tail, rows, text)
  {
    var spans := [head] + tail;
    forall i | 0 < i < |spans| ensures spans[i] == tail[i - 1] && rows[i] == rows[1..][i - 1] { }
  }

  /** `_getRowsPositions` on a true layout: contiguous spans covering every caret offset, on the rows' text. */
  lemma RowsPositionsTileBuffer(text: string, rows: seq<string>)
    requires IsLayoutOf(rows, text)
    ensures Tiles(RowsPositions(text, rows), |text|)
    ensures PlacedFrom(RowsPositions(text, rows), rows, text, 0)
  {
    EolsPositionsAreNewlineIndices(text);
    PlaceFollowsLayout(text, EolsPositions(text), rows, 0);
  }

  /** Every span lies within the caret offsets `0..len`. */
  predicate InBuffer(spans: seq<Span>, len: int) {
    forall i :: 0 <= i < |spans| ==> 0 <= spans[i].start <= spans[i].end <= len
  }

  lemma RowsPositionsInBuffer(text: string, rows: seq<string>)
    requires IsLayoutOf(rows, text)
    ensures InBuffer(RowsPositions(text, rows), |text|)
  {
    var spans := RowsPositions(text, rows);
    RowsPositionsTileBuffer(text, rows);
    forall i | 0 <= i < |spans| ensures 0 <= spans[i].start <= spans[i].end <= |text| {
      if i < |spans| - 1 {
        assert 0 <= spans[i].start + |rows[i]| < |text|;
      }
    }
  }

  /** The row spans of a true layout, with what `RowsPositionsTileBuffer` proves of them. */
  function RowSpans(text: string, rows: seq<string>): (spans: seq<Span>)
    requires IsLayoutOf(rows, text)
    ensures spans == RowsPositions(text, rows) && |spans| == |rows|
    ensures Tiles(spans, |text|) && InBuffer(spans, |text|)
  {
    RowsPositionsTileBuffer(text, rows);
    RowsPositionsInBuffer(text, rows);
    RowsPositions(text, rows)
  }

  /** `rowsPositions.findIndex(...)` from row `i` on: the first span holding caret `c`, or -1. */
  function FindIndexFrom(spans: seq<Span>, c: int, i: nat): (r: int)
    requires i <= |spans|
    ensures r == -1 || (i <= r < |spans| && Covers(spans[r], c))
    ensures forall j :: i <= j < |spans| && (r == -1 || j < r) ==> !Covers(spans[j], c)
    decreases |spans| - i
  {
    if i == |spans| then -1
    else if Covers(spans[i], c) then i
    else FindIndexFrom(spans, c, i + 1)
  }

  /** A boolean field that may still be `undefined`. */
  datatype Flag = Undefined | Defined(value: bool)

  /** The number `_findRowIndex` returns: a row index, or NaN. */
  datatype RowIndex = NaN | Index(value: int)

  /** A span starts at caret offset `c`. */
  predicate StartsRow(spans: seq<Span>, c: int) {
    exists j :: 0 <= j < |spans| && spans[j].start == c
  }

  /**
   * `_findRowIndex()`: the first row holding caret `c`, stepped back one row when the last
   * mouse click was on the line before it and the caret sits at that row's first offset (a
   * caret at a soft wrap can be shown at the end of the upper line). `findIndex` leaves
   * `isWrongIndex` as computed for the last row it looked at.
   *
   * `isMouseClick` is `undefined` until the first click or move-state reset. The test
   * `cursorPos === start && this.isMouseClick && ...` then yields `undefined` whenever the
   * caret is at the probed row's start, and `index -= undefined` makes the index NaN.
   */
  function FindRowIndex(spans: seq<Span>, c: int, isMouseClick: Flag, lineIndex: int): (index: RowIndex)
    ensures index.Index? ==> -2 <= index.value < |spans|
    ensures isMouseClick.Defined? ==> index.Index?
    ensures isMouseClick == Defined(false) ==> index == Index(FindIndexFrom(spans, c, 0))
  {
    var found := FindIndexFrom(spans, c, 0);
    var probe := if found >= 0 then found else |spans| - 1;
    var atStart := probe >= 0 && c == spans[probe].start;
    match isMouseClick
    case Undefined => if atStart then NaN else Index(found)
    case Defined(click) => Index(found - (if atStart && click && lineIndex == probe - 1 then 1 else 0))
  }

  lemma {:induction false} TilesCoverFrom(spans: seq<Span>, len: int, c: int, i: nat)
    requires Tiles(spans, len) && i < |spans| && spans[i].start <= c <= len
    ensures FindIndexFrom(spans, c, i) >= 0
    decreases |spans| - i
  {
    if !Covers(spans[i], c) {
      TilesCoverFrom(spans, len, c, i + 1);
    }
  }

  /** Every caret offset `0..len` lies in some span. */
  lemma TilesCover(spans: seq<Span>, len: int, c: int)
    requires Tiles(spans, len) && 0 <= c <= len
    ensures 0 <= FindIndexFrom(spans, c, 0) < |spans|
  {
    TilesCoverFrom(spans, len, c, 0);
  }

  lemma {:induction false} TilesOrdered(spans: seq<Span>, len: int, a: nat, b: nat)
    requires Tiles(spans, len) && a < b < |spans|
    ensures spans[a].end < spans[b].start
    decreases b - a
  {
    if a + 1 < b {
      TilesOrdered(spans, len, a, b - 1);
    }
  }

  /** No caret offset lies in two spans. */
  lemma TilesDisjoint(spans: seq<Span>, len: int, a: nat, b: nat, c: int)
    requires Tiles(spans, len) && a < |spans| && b < |spans|
    requires Covers(spans[a], c) && Covers(spans[b], c)
    ensures a == b
  {
    if a < b {
      TilesOrdered(spans, len, a, b);
    } else if b < a {
      TilesOrdered(spans, len, b, a);
    }
  }

  /** On tiling spans, the caret starts a row exactly when it is the start of the row holding it. */
  lemma StartsRowAtFound(spans: seq<Span>, len: int, c: int)
    requires Tiles(spans, len) && 0 <= c <= len
    ensures 0 <= FindIndexFrom(spans, c, 0) < |spans|
    ensures StartsRow(spans, c) <==> c == spans[FindIndexFrom(spans, c, 0)].start
  {
    TilesCover(spans, len, c);
    var found := FindIndexFrom(spans, c, 0);
    if StartsRow(spans, c) {
      var j :| 0 <= j < |spans| && spans[j].start == c;
      TilesDisjoint(spans, len, found, j, c);
    }
  }

  /**
   * On tiling spans, `_findRowIndex` names the row holding the caret, or the row before it
   * when a click on that line put the caret at a row start. It yields -1 exactly when a click
   * on line -1 left the caret at offset 0, and NaN exactly when the click flag is
   * still undefined and the caret is at a row start.
   */
  lemma FindRowIndexInTiles(spans: seq<Span>, len: int, c: int, isMouseClick: Flag, lineIndex: int)
    requires Tiles(spans, len) && 0 <= c <= len
    ensures var index := FindRowIndex(spans, c, isMouseClick, lineIndex);
            && (index.NaN? <==> isMouseClick.Undefined? && StartsRow(spans, c))
            && (index.Index? ==> -1 <= index.value < |spans|)
            && (index == Index(-1) <==> c == 0 && isMouseClick == Defined(true) && lineIndex == -1)
            && (index.Index? && index.value >= 0 ==> spans[index.value].start <= c)
            && (index.Index? && index.value >= 0 ==>
                  || Covers(spans[index.value], c)
                  || (&& index.value + 1 < |spans| && c == spans[index.value + 1].start
                      && isMouseClick == Defined(true) && lineIndex == index.value))
            && (isMouseClick == Defined(false) ==> index.Index? && index.value >= 0 && Covers(spans[index.value], c))
  {
    StartsRowAtFound(spans, len, c);
    var found := FindIndexFrom(spans, c, 0);
    if c == 0 {
      assert Covers(spans[0], 0);
      assert found == 0;
    }
    if found > 0 {
      assert spans[found - 1].start <= spans[found - 1].end;
    }
  }

  lemma {:induction false} PlaceIgnoresAbsentZero(eols: seq<int>, rows: seq<string>, last: int)
    requires 0 !in eols
    ensures Place(eols, rows, last, true) == Place(eols, rows, last, false)
    decreases |rows|
  {
    if |rows| > 0 {
      var end := last + |rows[0]| - (if |rows| == 1 then 0 else 1);
      assert Found(eols, end + 1, true) == Found(eols, end + 1, false);
      var next := last + (if Found(eols, end + 1, false) then 1 else 0) + |rows[0]|;
      PlaceIgnoresAbsentZero(eols, rows[1..], next);
    }
  }

  /** The as-written and the corrected row spans differ only for a buffer that starts with a newline. */
  lemma RowsPositionsAsWrittenAgrees(text: string, rows: seq<string>)
    requires |text| == 0 || text[0] != '\n'
    ensures RowsPositionsAsWritten(text, rows) == RowsPositions(text, rows)
  {
    EolsPositionsAreNewlineIndices(text);
    PlaceIgnoresAbsentZero(EolsPositions(text), rows, 0);
  }

  /**
   * On "\nab", laid out as the rows "" and "ab", the as-written spans start the second row at 0
   * instead of 1, so the caret at the end of the buffer lies in no span and `_findRowIndex`
   * returns -1; the corrected spans tile the buffer.
   */
  lemma LeadingNewlineLosesLastCaret()
    ensures IsLayoutOf(["", "ab"], "\nab")
    ensures RowsPositionsAsWritten("\nab", ["", "ab"]) == [Span(0, -1), Span(0, 2)]
    ensures FindRowIndex(RowsPositionsAsWritten("\nab", ["", "ab"]), 3, Defined(false), 0) == Index(-1)
    ensures RowsPositions("\nab", ["", "ab"]) == [Span(0, 0), Span(1, 3)]
  {
    var text := "\nab";
    var rows := ["", "ab"];
    assert rows[1..] == ["ab"];
    assert text[1..] == "ab";
    assert LayoutFrom(rows[1..], text, 1);
    EolsPositionsAreNewlineIndices(text);
    var eols := EolsPositions(text);
    assert 0 in eols;
    assert 3 !in eols && 4 !in eols && 2 !in eols;
    assert Place(eols, rows[1..], 0, true) == [Span(0, 2)];
    assert Place(eols, rows[1..], 1, false) == [Span(1, 3)];
  }
}

=== FILE: sets.dfy ===
/** Set comparison used by hotkey matching (src/js/utils.js). */
module Sets {

  /** `areSetsEqual(a, b)`: equal sizes, and every member of `a` is a member of `b`. */
  predicate AreSetsEqual<T>(a: set<T>, b: set<T>) {
    |a| == |b| && forall x :: x in a ==> x in b
  }

  /** A subset whose size equals the superset's is the whole superset. */
  lemma {:induction false} SubsetOfSameSize<T>(a: set<T>, b: set<T>)
    requires a <= b
    requires |a| == |b|
    ensures a == b
  {
    if a != b {
      var y :| y in b && y !in a;
      assert a <= b - {y};
      SubsetSize(a, b - {y});
    }
  }

  lemma {:induction false} SubsetSize<T>(a: set<T>, b: set<T>)
    requires a <= b
    ensures |a| <= |b|
  {
    if a != {} {
      var x :| x in a;
      SubsetSize(a - {x}, b - {x});
    }
  }

  /** For finite sets the size-and-membership test is exactly set equality. */
  lemma AreSetsEqualIsEquality<T>(a: set<T>, b: set<T>)
    ensures AreSetsEqual(a, b) <==> a == b
  {
    if AreSetsEqual(a, b) {
      SubsetOfSameSize(a, b);
    }
  }

  lemma AreSetsEqualReflexive<T>(a: set<T>)
    ensures AreSetsEqual(a, a)
  {
  }

  lemma AreSetsEqualSymmetric<T>(a: set<T>, b: set<T>)
    ensures AreSetsEqual(a, b) <==> AreSetsEqual(b, a)
  {
    AreSetsEqualIsEquality(a, b);
    AreSetsEqualIsEquality(b, a);
  }

  /** The size comparison alone already decides a mismatch. */
  lemma DifferentSizesNeverEqual<T>(a: set<T>, b: set<T>)
    requires |a| != |b|
    ensures !AreSetsEqual(a, b)
  {
  }
}

=== FILE: text_area.dfy ===
/**
 * The caret, selection and editing engine of the text area (src/js/text-area.js) as a pure
 * state machine. The textarea element's value and selection live in the state; the browser
 * calls it makes are the ones written out in module TextControl.
 */
module TextArea {
  import opened Wrappers
  import opened TextControl
  import opened Rows

  /** `TextArea.SELECT_MODE`, plus the `undefined` the field holds before the first selection call. */
  datatype SelectMode = Unset | Left | Right

  /** `TextArea.MOVE_DIRECTION`: up is -1, down is +1. */
  datatype Direction = Up | Down {
    function Step(): int {
      if Up? then -1 else 1
    }

    function Opposite(): (d: Direction)
      ensures d != this && d.Step() == -Step()
    {
      if Up? then Down else Up
    }
  }

  /**
   * The element's value and selection, and the fields the class keeps beside them:
   * `isDecrease` (the last vertical move was clamped to a short row's end), `isBoundaryMove`
   * (the last vertical move jumped to a buffer end), `prevOffset` (the remembered column),
   * `isMouseClick` and `lineIndex` (set by a click). `isMouseClick` is Undefined while it is still
   * `undefined`, which `_findRowIndex` does not read as false.
   */
  datatype Editor = Editor(
    text: string,
    start: nat,
    end: nat,
    selectMode: SelectMode,
    isDecrease: bool,
    isBoundaryMove: bool,
    prevOffset: nat,
    isMouseClick: Flag,
    lineIndex: int)
  {
    /** What the element guarantees of its selection. */
    predicate Valid() {
      start <= end <= |text|
    }

    predicate Collapsed() {
      start == end
    }

    /** The buffer with `[start, end)` cut out. */
    function Outside(): string
      requires Valid()
    {
      text[..start] + text[end..]
    }
  }

  /**
   * The constructor: the rendered textarea holds "Focus me" and the caret is put after it.
   * No field of the move state is assigned: `isDecrease` and `isBoundaryMove` are read only
   * in tests that take `undefined` as false, and `prevOffset` and `lineIndex` only after they
   * have been written, but `isMouseClick` stays `undefined` until the first reset.
   */
  function Init(): (e: Editor)
    ensures e.Valid() && e.Collapsed() && e.start == |e.text|
    ensures e.text == "Focus me"
    ensures !e.isDecrease && !e.isBoundaryMove && e.isMouseClick.Undefined? && e.selectMode == Unset
  {
    var text := "Focus me";
    var c := SetCursor(|text|, |text|);
    Editor(text, c, c, Unset, false, false, 0, Undefined, 0)
  }

  /** The constructor as evidently intended: the same, with `_resetMoveState()` run at the end. */
  function InitReset(): (e: Editor)
    ensures e.Valid() && e.Collapsed() && e.start == |e.text| && e.text == "Focus me"
    ensures !e.isDecrease && !e.isBoundaryMove && e.isMouseClick == Defined(false) && e.selectMode == Unset
  {
    ResetMoveState(Init())
  }

  /** `_resetMoveState()`. */
  function ResetMoveState(e: Editor): (r: Editor)
    ensures !r.isDecrease && !r.isBoundaryMove && r.isMouseClick == Defined(false)
    ensures r.(isDecrease := e.isDecrease, isBoundaryMove := e.isBoundaryMove, isMouseClick := e.isMouseClick) == e
  {
    e.(isDecrease := false, isBoundaryMove := false, isMouseClick := Defined(false))
  }

  /**
   * `handleClick`: forgets the move state; `line` is the row the click's height falls on, or
   * None when the click is too far left for the handler to record one.
   */
  function HandleClick(e: Editor, line: Option<int>): (r: Editor)
    ensures !r.isDecrease && !r.isBoundaryMove
    ensures r.isMouseClick == Defined(line.Some?)
    ensures line.Some? ==> r.lineIndex == line.value
    ensures r.text == e.text && r.start == e.start && r.end == e.end && r.selectMode == e.selectMode
  {
    var reset := ResetMoveState(e);
    match line
    case Some(i) => reset.(lineIndex := i, isMouseClick := Defined(true))
    case None => reset
  }

  /** `setCursor(pos)`: a collapsed caret, clamped to the buffer. */
  function PutCursor(e: Editor, pos: nat): (r: Editor)
    ensures r.Valid() && r.Collapsed()
    ensures r.start == if pos <= |e.text| then pos else |e.text|
    ensures r.(start := e.start, end := e.end) == e
  {
    var c := SetCursor(|e.text|, pos);
    e.(start := c, end := c)
  }

  /**
   * `addText(text)`: the selection is replaced by `t`, the caret lands right after it and the
   * move state is forgotten.
   */
  function AddText(e: Editor, t: string): (r: Editor)
    requires e.Valid()
    ensures r.Valid() && r.Collapsed()
    ensures r.text == e.text[..e.start] + t + e.text[e.end..]
    ensures r.start == e.start + |t|
    ensures !r.isDecrease && !r.isBoundaryMove && r.isMouseClick == Defined(false)
    ensures r.selectMode == e.selectMode && r.prevOffset == e.prevOffset && r.lineIndex == e.lineIndex
  {
    var s := SetRangeTextEnd(e.text, t, e.start, e.end);
    assert s.text == s.text[..e.start] + s.text[e.start..s.caret] + s.text[s.caret..];
    ResetMoveState(e.(text := s.text, start := s.caret, end := s.caret))
  }

  /** `enter()`: inserts a newline. */
  function Enter(e: Editor): (r: Editor)
    requires e.Valid()
    ensures r.Valid() && r.Collapsed() && r.start == e.start + 1
    ensures r.text == e.text[..e.start] + "\n" + e.text[e.end..]
  {
    AddText(e, "\n")
  }

  /** `tab()`: inserts four spaces. */
  function Tab(e: Editor): (r: Editor)
    requires e.Valid()
    ensures r.Valid() && r.Collapsed() && r.start == e.start + 4
    ensures r.text == e.text[..e.start] + "    " + e.text[e.end..]
  {
    AddText(e, "    ")
  }

  /** `space()`: inserts one space. */
  function Space(e: Editor): (r: Editor)
    requires e.Valid()
    ensures r.Valid() && r.Collapsed() && r.start == e.start + 1
    ensures r.text == e.text[..e.start] + " " + e.text[e.end..]
  {
    AddText(e, " ")
  }

  /** `selectAll()`: the whole buffer, growing to the right. */
  function SelectAll(e: Editor): (r: Editor)
    requires e.Valid()
    ensures r.Valid() && r.start == 0 && r.end == |e.text|
    ensures r.selectMode == Right
    ensures r.(start := e.start, end := e.end, selectMode := e.selectMode) == e
  {
    var range := SetSelectionRange(|e.text|, 0, |e.text|);
    e.(selectMode := Right, start := range.start, end := range.end)
  }

  /**
   * `selectLeft()`: a collapsed selection starts growing leftwards; while growing leftwards
   * the start moves left (not past 0), otherwise the end moves back left.
   */
  function SelectLeft(e: Editor): (r: Editor)
    requires e.Valid()
    ensures r.Valid() && r.text == e.text
    ensures e.Collapsed() ==> r.selectMode == Left
    ensures !e.Collapsed() ==> r.selectMode == e.selectMode
    ensures r.selectMode == Left ==> r.end == e.end && r.start == (if e.start == 0 then 0 else e.start - 1)
    ensures r.selectMode != Left ==> r.start == e.start && r.end == e.end - 1
    ensures r.(start := e.start, end := e.end, selectMode := e.selectMode) == e
  {
    var mode := if e.start == e.end then Left else e.selectMode;
    var range :=
      if mode == Left then SetSelectionRange(|e.text|, if e.start != 0 then e.start - 1 else 0, e.end)
      else SetSelectionRange(|e.text|, e.start, e.end - 1);
    e.(selectMode := mode, start := range.start, end := range.end)
  }

  /**
   * `selectRight()`: a collapsed selection starts growing rightwards; while growing rightwards
   * the end moves right (not past the buffer's end), otherwise the start moves back right.
   */
  function SelectRight(e: Editor): (r: Editor)
    requires e.Valid()
    ensures r.Valid() && r.text == e.text
    ensures e.Collapsed() ==> r.selectMode == Right
    ensures !e.Collapsed() ==> r.selectMode == e.selectMode
    ensures r.selectMode == Right ==> r.start == e.start && r.end == (if e.end == |e.text| then e.end else e.end + 1)
    ensures r.selectMode != Right ==> r.end == e.end && r.start == e.start + 1
    ensures r.(start := e.start, end := e.end, selectMode := e.selectMode) == e
  {
    var mode := if e.start == e.end then Right else e.selectMode;
    var range :=
      if mode == Right then SetSelectionRange(|e.text|, e.start, e.end + 1)
      else SetSelectionRange(|e.text|, e.start + 1, e.end);
    e.(selectMode := mode, start := range.start, end := range.end)
  }

  /** `arrowLeft()`: caret one left of the selection start (staying at 0), move state forgotten. */
  function ArrowLeft(e: Editor): (r: Editor)
    requires e.Valid()
    ensures r.Valid() && r.Collapsed()
    ensures r.start == if e.start == 0 then 0 else e.start - 1
    ensures !r.isDecrease && !r.isBoundaryMove && r.isMouseClick == Defined(false)
    ensures r.text == e.text && r.selectMode == e.selectMode && r.prevOffset == e.prevOffset
  {
    ResetMoveState(PutCursor(e, if e.start == 0 then e.start else e.start - 1))
  }

  /** `arrowRight()`: caret one right of the selection start (staying at the end), move state forgotten. */
  function ArrowRight(e: Editor): (r: Editor)
    requires e.Valid()
    ensures r.Valid() && r.Collapsed()
    ensures r.start == if e.start == |e.text| then e.start else e.start + 1
    ensures !r.isDecrease && !r.isBoundaryMove && r.isMouseClick == Defined(false)
    ensures r.text == e.text && r.selectMode == e.selectMode && r.prevOffset == e.prevOffset
  {
    ResetMoveState(PutCursor(e, e.start + 1))
  }

  /**
   * `_makeBoundaryMove(direction, rowStart)`: there is no row to move to, so the caret goes to
   * the start or the end of the buffer; the caret's column is remembered unless the move
   * state already holds one.
   */
  function BoundaryMove(e: Editor, dir: Direction, rowStart: nat): (r: Editor)
    requires e.Valid() && rowStart <= e.start
    ensures r.Valid() && r.Collapsed() && r.isBoundaryMove
    ensures r.start == if dir == Up then 0 else |e.text|
    ensures r.prevOffset == if !e.isBoundaryMove && !e.isDecrease then e.start - rowStart else e.prevOffset
    ensures r.text == e.text && r.isDecrease == e.isDecrease && r.isMouseClick == e.isMouseClick
    ensures r.selectMode == e.selectMode && r.lineIndex == e.lineIndex
  {
    var prev := if !e.isBoundaryMove && !e.isDecrease then e.start - rowStart else e.prevOffset;
    PutCursor(e.(prevOffset := prev, isBoundaryMove := true), if dir == Up then 0 else |e.text|)
  }

  /**
   * The second half of `_moveVertically`: the column is the caret's offset in its row, or the
   * remembered one after a boundary move or while clamping and the caret's column is smaller;
   * the caret lands at that column of the target row, or at the row's end (setting
   * `isDecrease`) when the row is too short.
   */
  function MoveToRow(e: Editor, column: nat, target: Span): (r: Editor)
    requires e.Valid() && 0 <= target.start <= target.end <= |e.text|
    ensures r.Valid() && r.Collapsed()
    ensures target.start <= r.start <= target.end
    ensures r.prevOffset == if (e.isDecrease && column < e.prevOffset) || e.isBoundaryMove then e.prevOffset else column
    ensures r.isDecrease <==> r.prevOffset > target.end - target.start
    ensures r.start == if r.isDecrease then target.end else target.start + r.prevOffset
    ensures !r.isBoundaryMove
    ensures r.text == e.text && r.isMouseClick == e.isMouseClick
    ensures r.selectMode == e.selectMode && r.lineIndex == e.lineIndex
  {
    var rowOffset := if (e.isDecrease && column < e.prevOffset) || e.isBoundaryMove then e.prevOffset else column;
    var isDecrease := rowOffset > target.end - target.start;
    PutCursor(
      e.(isDecrease := isDecrease, prevOffset := rowOffset, isBoundaryMove := false),
      if isDecrease then target.end else target.start + rowOffset)
  }

  /**
   * What a vertical move leaves behind: the new state, or the state at the point where
   * `_moveVertically` throws a TypeError reading `.start` of a row that does not exist
   * (`rowsPositions[-1]` or `rowsPositions[NaN]`).
   */
  datatype MoveOutcome = Moved(state: Editor) | Threw(state: Editor)

  /**
   * `_moveVertically(direction)`, i.e. `arrowUp()` / `arrowDown()`, given the visual rows the
   * browser reports for the current buffer. It throws when the row index is NaN (the click flag
   * still undefined with the caret at a row start) or -1 (a click on line -1 with the caret at 0).
   * A completed move starts from the row `_findRowIndex` names and lands inside the next row in
   * the direction of the move, or at the buffer's start or end when there is none.
   */
  function MoveVertically(e: Editor, rows: seq<string>, dir: Direction): (r: MoveOutcome)
    requires e.Valid() && IsLayoutOf(rows, e.text)
    ensures r.state.Valid() && r.state.text == e.text && r.state.isMouseClick == Defined(false)
    ensures r.state.selectMode == e.selectMode && r.state.lineIndex == e.lineIndex
    ensures r.Threw? <==>
              || (e.isMouseClick.Undefined? && StartsRow(RowSpans(e.text, rows), e.start))
              || (e.start == 0 && e.isMouseClick == Defined(true) && e.lineIndex == -1)
    ensures r.Threw? ==> r.state == e.(isMouseClick := Defined(false))
    ensures r.Moved? ==> r.state.Collapsed()
    ensures r.Moved? ==>
              var spans := RowSpans(e.text, rows);
              var index := FindRowIndex(spans, e.start, e.isMouseClick, e.lineIndex);
              && index.Index? && 0 <= index.value < |spans|
              && if 0 <= index.value + dir.Step() < |spans| then Covers(spans[index.value + dir.Step()], r.state.start)
                 else r.state.start == (if dir == Up then 0 else |e.text|)
  {
    var spans := RowSpans(e.text, rows);
    var found := FindRowIndex(spans, e.start, e.isMouseClick, e.lineIndex);
    FindRowIndexInTiles(spans, |e.text|, e.start, e.isMouseClick, e.lineIndex);
    var clicked := e.(isMouseClick := Defined(false));
    match found
    case NaN => Threw(clicked)
    case Index(index) =>
      if index < 0 then
        Threw(clicked)
      else
        var target := index + dir.Step();
        if target < 0 || target >= |spans| then
          Moved(BoundaryMove(clicked, dir, spans[index].start))
        else
          Moved(MoveToRow(clicked, e.start - spans[index].start, spans[target]))
  }

  /**
   * `arrowUp()`: the caret never moves right; after a reset and with no pending click the move
   * always lands, while with the click flag still undefined a caret at 0 throws.
   */
  function ArrowUp(e: Editor, rows: seq<string>): (r: MoveOutcome)
    requires e.Valid() && IsLayoutOf(rows, e.text)
    ensures e.isMouseClick == Defined(false) ==> r.Moved?
    ensures e.isMouseClick.Undefined? && e.start == 0 ==> r.Threw?
    ensures r.state.start <= e.start
  {
    UpNeverMovesRight(e, rows);
    assert RowSpans(e.text, rows)[0].start == 0;
    MoveVertically(e, rows, Up)
  }

  /**
   * `arrowDown()`: the caret never moves left; after a reset and with no pending click the
   * move always lands, while with the click flag still undefined a caret at 0 throws.
   */
  function ArrowDown(e: Editor, rows: seq<string>): (r: MoveOutcome)
    requires e.Valid() && IsLayoutOf(rows, e.text)
    ensures e.isMouseClick == Defined(false) ==> r.Moved?
    ensures e.isMouseClick.Undefined? && e.start == 0 ==> r.Threw?
    ensures r.state.start >= e.start
  {
    DownNeverMovesLeft(e, rows);
    assert RowSpans(e.text, rows)[0].start == 0;
    MoveVertically(e, rows, Down)
  }

  lemma UpNeverMovesRight(e: Editor, rows: seq<string>)
    requires e.Valid() && IsLayoutOf(rows, e.text)
    ensures MoveVertically(e, rows, Up).state.start <= e.start
  {
    var spans := RowSpans(e.text, rows);
    FindRowIndexInTiles(spans, |e.text|, e.start, e.isMouseClick, e.lineIndex);
    var index := FindRowIndex(spans, e.start, e.isMouseClick, e.lineIndex);
    if index.Index? && index.value >= 1 {
      assert spans[index.value].start == spans[index.value - 1].end + 1;
    }
  }

  lemma DownNeverMovesLeft(e: Editor, rows: seq<string>)
    requires e.Valid() && IsLayoutOf(rows, e.text)
    ensures MoveVertically(e, rows, Down).state.start >= e.start
  {
    var spans := RowSpans(e.text, rows);
    FindRowIndexInTiles(spans, |e.text|, e.start, e.isMouseClick, e.lineIndex);
    var index := FindRowIndex(spans, e.start, e.isMouseClick, e.lineIndex);
    if index.Index? && 0 <= index.value && index.value + 1 < |spans| {
      assert spans[index.value + 1].start == spans[index.value].end + 1;
    }
  }

  /**
   * Without a pending click the move starts from the row that holds the caret and lands on
   * the neighbouring row when there is one.
   */
  lemma MoveFromRow(e: Editor, rows: seq<string>, dir: Direction, i: nat)
    requires e.Valid() && IsLayoutOf(rows, e.text) && e.isMouseClick == Defined(false)
    requires i < |RowSpans(e.text, rows)| && Covers(RowSpans(e.text, rows)[i], e.start)
    requires 0 <= i + dir.Step() < |RowSpans(e.text, rows)|
    ensures var spans := RowSpans(e.text, rows);
            MoveVertically(e, rows, dir) == Moved(MoveToRow(e, e.start - spans[i].start, spans[i + dir.Step()]))
  {
    RowIndexWithoutClick(e, rows, i);
    assert e.(isMouseClick := Defined(false)) == e;
  }

  /** Without a pending click and with no row beyond the caret's row, the move goes to a buffer end. */
  lemma BoundaryFromRow(e: Editor, rows: seq<string>, dir: Direction, i: nat)
    requires e.Valid() && IsLayoutOf(rows, e.text) && e.isMouseClick == Defined(false)
    requires i < |RowSpans(e.text, rows)| && Covers(RowSpans(e.text, rows)[i], e.start)
    requires !(0 <= i + dir.Step() < |RowSpans(e.text, rows)|)
    ensures MoveVertically(e, rows, dir) == Moved(BoundaryMove(e, dir, RowSpans(e.text, rows)[i].start))
  {
    RowIndexWithoutClick(e, rows, i);
    assert e.(isMouseClick := Defined(false)) == e;
  }

  lemma RowIndexWithoutClick(e: Editor, rows: seq<string>, i: nat)
    requires e.Valid() && IsLayoutOf(rows, e.text)
    requires i < |RowSpans(e.text, rows)| && Covers(RowSpans(e.text, rows)[i], e.start)
    ensures FindRowIndex(RowSpans(e.text, rows), e.start, Defined(false), e.lineIndex) == Index(i)
  {
    var spans := RowSpans(e.text, rows);
    FindRowIndexInTiles(spans, |e.text|, e.start, Defined(false), e.lineIndex);
    TilesDisjoint(spans, |e.text|, FindRowIndex(spans, e.start, Defined(false), e.lineIndex).value, i, e.start);
  }

  /**
   * Moving up then down (or down then up) between two rows brings the caret back to where it
   * was, even when the other row was too short and the caret was clamped to its end: the
   * remembered column takes it back.
   */
  lemma VerticalRoundTrip(e: Editor, rows: seq<string>, dir: Direction, i: nat)
    requires e.Valid() && IsLayoutOf(rows, e.text)
    requires !e.isDecrease && !e.isBoundaryMove && e.isMouseClick == Defined(false)
    requires i < |RowSpans(e.text, rows)| && Covers(RowSpans(e.text, rows)[i], e.start)
    requires 0 <= i + dir.Step() < |RowSpans(e.text, rows)|
    ensures var there := MoveVertically(e, rows, dir);
            var back := MoveVertically(there.state, rows, dir.Opposite());
            there.Moved? && back.Moved? && back.state.start == e.start
  {
    MoveFromRow(e, rows, dir, i);
    MoveBack(e, rows, dir, i);
  }

  /** The way back of `VerticalRoundTrip`, from where the first move landed. */
  lemma MoveBack(e: Editor, rows: seq<string>, dir: Direction, i: nat)
    requires e.Valid() && IsLayoutOf(rows, e.text)
    requires !e.isDecrease && !e.isBoundaryMove && e.isMouseClick == Defined(false)
    requires i < |RowSpans(e.text, rows)| && Covers(RowSpans(e.text, rows)[i], e.start)
    requires 0 <= i + dir.Step() < |RowSpans(e.text, rows)|
    ensures var spans := RowSpans(e.text, rows);
            var mid := MoveToRow(e, e.start - spans[i].start, spans[i + dir.Step()]);
            var back := MoveVertically(mid, rows, dir.Opposite());
            back.Moved? && back.state.start == e.start
  {
    var spans := RowSpans(e.text, rows);
    var j := i + dir.Step();
    var col := e.start - spans[i].start;
    var mid := MoveToRow(e, col, spans[j]);
    MoveToRowRemembers(e, col, spans[j]);
    assert j + dir.Opposite().Step() == i;
    assert mid.text == e.text && RowSpans(mid.text, rows) == spans;
    ReturnToColumn(mid, rows, dir.Opposite(), j, col);
    var back := MoveVertically(mid, rows, dir.Opposite());
    assert back.state.start == spans[i].start + col;
  }

  /**
   * The caret sits on `target` after a vertical move that remembered column `col`: at that
   * column, or at the row's end when the row is shorter.
   */
  predicate RemembersColumn(m: Editor, target: Span, col: nat) {
    && m.Valid() && m.Collapsed() && !m.isBoundaryMove && m.isMouseClick == Defined(false)
    && m.prevOffset == col
    && (m.isDecrease <==> col > target.end - target.start)
    && m.start == (if m.isDecrease then target.end else target.start + col)
  }

  lemma MoveToRowRemembers(e: Editor, col: nat, target: Span)
    requires e.Valid() && 0 <= target.start <= target.end <= |e.text|
    requires !e.isDecrease && !e.isBoundaryMove && e.isMouseClick == Defined(false)
    ensures MoveToRow(e, col, target).text == e.text
    ensures RemembersColumn(MoveToRow(e, col, target), target, col)
  {
  }

  /** From a row where the caret remembers column `col`, a move to a row holding that column lands on it. */
  lemma ReturnToColumn(m: Editor, rows: seq<string>, dir: Direction, j: nat, col: nat)
    requires IsLayoutOf(rows, m.text)
    requires j < |RowSpans(m.text, rows)| && 0 <= j + dir.Step() < |RowSpans(m.text, rows)|
    requires RemembersColumn(m, RowSpans(m.text, rows)[j], col)
    requires col <= RowSpans(m.text, rows)[j + dir.Step()].end - RowSpans(m.text, rows)[j + dir.Step()].start
    ensures var back := MoveVertically(m, rows, dir);
            back.Moved? && back.state.start == RowSpans(m.text, rows)[j + dir.Step()].start + col
  {
    MoveFromRow(m, rows, dir, j);
  }

  /** `arrowUp()` on the first row: the caret goes to offset 0 and the column is remembered unless one already was. */
  lemma UpFromFirstRow(e: Editor, rows: seq<string>)
    requires e.Valid() && IsLayoutOf(rows, e.text) && e.isMouseClick == Defined(false)
    requires |RowSpans(e.text, rows)| > 0 && e.start <= RowSpans(e.text, rows)[0].end
    ensures var r := ArrowUp(e, rows);
            && r.Moved? && r.state.start == 0 && r.state.isBoundaryMove
            && r.state.prevOffset == if !e.isBoundaryMove && !e.isDecrease then e.start else e.prevOffset
  {
    BoundaryFromRow(e, rows, Up, 0);
  }

  /** `arrowDown()` on the last row: the caret goes to the end of the buffer, remembering its column likewise. */
  lemma DownFromLastRow(e: Editor, rows: seq<string>)
    requires e.Valid() && IsLayoutOf(rows, e.text) && e.isMouseClick == Defined(false)
    requires var spans := RowSpans(e.text, rows);
             |spans| > 0 && spans[|spans| - 1].start <= e.start
    ensures var spans := RowSpans(e.text, rows);
            var r := ArrowDown(e, rows);
            && r.Moved? && r.state.start == |e.text| && r.state.isBoundaryMove
            && r.state.prevOffset ==
                 if !e.isBoundaryMove && !e.isDecrease then e.start - spans[|spans| - 1].start else e.prevOffset
  {
    var spans := RowSpans(e.text, rows);
    BoundaryFromRow(e, rows, Down, |spans| - 1);
  }

  /**
   * From the constructor's state, selecting all and pressing arrow up or down throws: the click
   * flag is still undefined and the caret is at offset 0, the start of the first row.
   */
  lemma FreshSelectAllThenArrowThrows(rows: seq<string>)
    requires IsLayoutOf(rows, Init().text)
    ensures ArrowUp(SelectAll(Init()), rows).Threw?
    ensures ArrowDown(SelectAll(Init()), rows).Threw?
  {
  }

  /** With the move state reset in the constructor, arrow up and down after select-all always land. */
  lemma ResetInitArrowsMove(rows: seq<string>)
    requires IsLayoutOf(rows, InitReset().text)
    ensures ArrowUp(SelectAll(InitReset()), rows).Moved?
    ensures ArrowDown(SelectAll(InitReset()), rows).Moved?
  {
  }

  /**
   * `deleteSelection()`: the selection is cut out and the caret left at its start; the move
   * state is untouched.
   */
  function DeleteSelection(e: Editor): (r: Editor)
    requires e.Valid()
    ensures r.Valid() && r.Collapsed() && r.start == e.start
    ensures r.text == e.Outside()
    ensures r.(text := e.text, start := e.start, end := e.end) == e
  {
    var s := SetRangeTextEnd(e.text, "", e.start, e.end);
    assert s.text == s.text[..e.start] + s.text[e.start..];
    e.(text := s.text, start := s.caret, end := s.caret)
  }

  /**
   * `backspace()`: a caret removes the character before it (nothing at offset 0), a
   * selection is deleted; the move state is untouched.
   */
  function Backspace(e: Editor): (r: Editor)
    requires e.Valid()
    ensures r.Valid() && r.Collapsed()
    ensures e.Collapsed() && e.start > 0 ==>
              r.text == e.text[..e.start - 1] + e.text[e.start..] && r.start == e.start - 1
    ensures e.Collapsed() && e.start == 0 ==> r == e
    ensures !e.Collapsed() ==> r.text == e.Outside() && r.start == e.start
    ensures r.(text := e.text, start := e.start, end := e.end) == e
  {
    if e.start == e.end && e.start != 0 then
      var s := SetRangeTextEnd(e.text, "", e.start - 1, e.end);
      assert s.text == s.text[..e.start - 1] + s.text[e.start - 1..];
      e.(text := s.text, start := s.caret, end := s.caret)
    else
      DeleteSelection(e)
  }

  /**
   * `delete()`: a caret removes the character after it (nothing at the end of the buffer), a
   * selection is deleted; the move state is untouched.
   */
  function Delete(e: Editor): (r: Editor)
    requires e.Valid()
    ensures r.Valid() && r.Collapsed() && r.start == e.start
    ensures e.Collapsed() && e.start < |e.text| ==> r.text == e.text[..e.start] + e.text[e.start + 1..]
    ensures e.Collapsed() && e.start == |e.text| ==> r == e
    ensures !e.Collapsed() ==> r.text == e.Outside()
    ensures r.(text := e.text, start := e.start, end := e.end) == e
  {
    if e.start == e.end then
      var s := SetRangeTextEnd(e.text, "", e.start, e.end + 1);
      assert s.text == s.text[..e.start] + s.text[e.start..];
      e.(text := s.text, start := s.caret, end := s.caret)
    else
      DeleteSelection(e)
  }
}

=== FILE: text_area_props.dfy ===
/**
 * What the text area's editing and caret operations promise when composed: undoing an
 * insertion with backspaces, selecting everything then deleting it, the selection and arrow
 * keys undoing each other, and concrete walks of the caret over laid-out buffers.
 */
module TextAreaProps {
  import opened Wrappers
  import opened Rows
  import opened TextArea

  /** Pressing backspace `n` times. */
  function BackspaceTimes(e: Editor, n: nat): (r: Editor)
    requires e.Valid()
    ensures r.Valid()
    ensures |r.text| <= |e.text|
    decreases n
  {
    if n == 0 then e else BackspaceTimes(Backspace(e), n - 1)
  }

  /** With the caret right after `t`, `|t|` backspaces remove exactly `t`. */
  lemma {:induction false} BackspacesRemove(e: Editor, a: string, t: string, c: string)
    requires e.Valid() && e.Collapsed() && e.text == a + t + c && e.start == |a| + |t|
    ensures BackspaceTimes(e, |t|).text == a + c
    ensures BackspaceTimes(e, |t|).start == |a| && BackspaceTimes(e, |t|).Collapsed()
    decreases |t|
  {
    if |t| > 0 {
      var shorter := t[..|t| - 1];
      BackspaceStep(e, a, t, c);
      BackspacesRemove(Backspace(e), a, shorter, c);
    }
  }

  lemma BackspaceStep(e: Editor, a: string, t: string, c: string)
    requires e.Valid() && e.Collapsed() && e.text == a + t + c && e.start == |a| + |t| && |t| > 0
    ensures Backspace(e).text == a + t[..|t| - 1] + c
    ensures Backspace(e).start == |a| + |t| - 1 && Backspace(e).Collapsed()
  {
    assert e.text[..e.start - 1] == a + t[..|t| - 1];
    assert e.text[e.start..] == c;
  }

  /** `addText(t)` at a caret followed by `|t|` backspaces gives the buffer and the caret back. */
  lemma InsertThenBackspace(e: Editor, t: string)
    requires e.Valid() && e.Collapsed()
    ensures var r := BackspaceTimes(AddText(e, t), |t|);
            r.text == e.text && r.start == e.start && r.Collapsed()
  {
    var a := e.text[..e.start];
    var c := e.text[e.start..];
    InsertAround(e, t);
    BackspacesRemove(AddText(e, t), a, t, c);
  }

  lemma InsertAround(e: Editor, t: string)
    requires e.Valid() && e.Collapsed()
    ensures e.text == e.text[..e.start] + e.text[e.start..]
    ensures AddText(e, t).text == e.text[..e.start] + t + e.text[e.start..]
    ensures AddText(e, t).start == e.start + |t|
  {
  }

  /** `selectAll()` then `deleteSelection()` empties the buffer. */
  lemma SelectAllThenDelete(e: Editor)
    requires e.Valid()
    ensures DeleteSelection(SelectAll(e)).text == []
    ensures DeleteSelection(SelectAll(e)).start == 0
  {
  }

  /** Away from the start of the buffer, `arrowLeft()` then `arrowRight()` returns the caret. */
  lemma LeftThenRight(e: Editor)
    requires e.Valid() && e.Collapsed() && e.start > 0
    ensures ArrowRight(ArrowLeft(e)).start == e.start
  {
  }

  /** Away from the end of the buffer, `arrowRight()` then `arrowLeft()` returns the caret. */
  lemma RightThenLeft(e: Editor)
    requires e.Valid() && e.Collapsed() && e.start < |e.text|
    ensures ArrowLeft(ArrowRight(e)).start == e.start
  {
  }

  /**
   * From a caret, selecting one character rightwards and then shrinking it with
   * `selectLeft()` collapses the selection back onto the caret (the mode stays rightwards).
   */
  lemma SelectRightThenLeft(e: Editor)
    requires e.Valid() && e.Collapsed() && e.start < |e.text|
    ensures var r := SelectLeft(SelectRight(e));
            r.start == e.start && r.end == e.start && r.selectMode == Right
  {
  }

  /** The mirror image of `SelectRightThenLeft`. */
  lemma SelectLeftThenRight(e: Editor)
    requires e.Valid() && e.Collapsed() && e.start > 0
    ensures var r := SelectRight(SelectLeft(e));
            r.start == e.start && r.end == e.start && r.selectMode == Left
  {
  }

  /** A selection grown `n` times to the right from a caret covers the next `n` characters. */
  function SelectRightTimes(e: Editor, n: nat): (r: Editor)
    requires e.Valid()
    ensures r.Valid() && r.text == e.text
    decreases n
  {
    if n == 0 then e else SelectRightTimes(SelectRight(e), n - 1)
  }

  lemma {:induction false} SelectRightGrows(e: Editor, n: nat)
    requires e.Valid() && e.Collapsed() && e.start + n <= |e.text|
    ensures var r := SelectRightTimes(e, n);
            r.start == e.start && r.end == e.start + n && (n > 0 ==> r.selectMode == Right)
    decreases n
  {
    if n > 0 {
      SelectRightGrowsFrom(SelectRight(e), e.start, n - 1);
    }
  }

  lemma {:induction false} SelectRightGrowsFrom(e: Editor, anchor: nat, n: nat)
    requires e.Valid() && e.start == anchor < e.end && e.end + n <= |e.text| && e.selectMode == Right
    ensures var r := SelectRightTimes(e, n);
            r.start == anchor && r.end == e.end + n && r.selectMode == Right
    decreases n
  {
    if n > 0 {
      SelectRightGrowsFrom(SelectRight(e), anchor, n - 1);
    }
  }

  /** A caret with no move state and no pending click. */
  function Caret(text: string, c: nat): (e: Editor)
    requires c <= |text|
    ensures e.Valid() && e.Collapsed() && e.start == c && e.text == text
    ensures !e.isDecrease && !e.isBoundaryMove && e.isMouseClick == Defined(false)
  {
    Editor(text, c, c, Unset, false, false, 0, Defined(false), 0)
  }

  /** In "hello world", three `selectRight()` from offset 0 select "hel"; one `selectLeft()` shrinks it to "he". */
  lemma HelloWorldSelection()
    ensures var e := SelectRightTimes(Caret("hello world", 0), 3);
            && e.start == 0 && e.end == 3
            && SelectLeft(e).start == 0 && SelectLeft(e).end == 2
  {
    SelectRightGrows(Caret("hello world", 0), 3);
  }

  /** "abc\ndEFGH" is laid out as its two lines, with spans 0..3 and 4..9. */
  lemma TwoLines()
    ensures IsLayoutOf(["abc", "dEFGH"], "abc\ndEFGH")
    ensures RowSpans("abc\ndEFGH", ["abc", "dEFGH"]) == [Span(0, 3), Span(4, 9)]
  {
    TwoLinesLayout();
    TwoLinesSpans();
  }

  lemma TwoLinesLayout()
    ensures IsLayoutOf(["abc", "dEFGH"], "abc\ndEFGH")
  {
    var text := "abc\ndEFGH";
    var rows := ["abc", "dEFGH"];
    assert rows[1..] == ["dEFGH"];
    assert text[4..9] == "dEFGH" && text[0..3] == "abc";
    assert LayoutFrom(rows[1..], text, 4);
  }

  lemma TwoLinesSpans()
    ensures RowsPositions("abc\ndEFGH", ["abc", "dEFGH"]) == [Span(0, 3), Span(4, 9)]
  {
    var text := "abc\ndEFGH";
    FoundIffNewline(text, 3);
    FoundIffNewline(text, 10);
    TwoLinesPlace(EolsPositions(text));
  }

  lemma TwoLinesPlace(eols: seq<int>)
    requires Found(eols, 3, false) && !Found(eols, 10, false)
    ensures Place(eols, ["abc", "dEFGH"], 0, false) == [Span(0, 3), Span(4, 9)]
  {
    var rows := ["abc", "dEFGH"];
    assert rows[1..] == ["dEFGH"];
    assert Place(eols, rows[1..], 4, false) == [Span(4, 9)];
  }

  /** In "abc\ndEFGH", down from offset 1 lands on 5 and up brings it back to 1. */
  lemma DownThenUpKeepsColumn()
    ensures IsLayoutOf(["abc", "dEFGH"], "abc\ndEFGH")
    ensures var down := ArrowDown(Caret("abc\ndEFGH", 1), ["abc", "dEFGH"]);
            && down.Moved? && down.state.start == 5
            && ArrowUp(down.state, ["abc", "dEFGH"]).state.start == 1
  {
    var rows := ["abc", "dEFGH"];
    var e := Caret("abc\ndEFGH", 1);
    DownToColumnOne(e, rows);
    UpFromColumnOne(ArrowDown(e, rows).state, rows);
  }

  /** Down from offset 1 of "abc\ndEFGH" lands on offset 5, column 1 remembered. */
  lemma DownToColumnOne(e: Editor, rows: seq<string>)
    requires e.Valid() && e.text == "abc\ndEFGH" && rows == ["abc", "dEFGH"]
    requires e.start == 1 && e.isMouseClick == Defined(false) && !e.isDecrease && !e.isBoundaryMove
    ensures IsLayoutOf(rows, e.text)
    ensures var m := ArrowDown(e, rows).state;
            && ArrowDown(e, rows).Moved? && m.Valid() && m.text == e.text && m.isMouseClick == Defined(false)
            && m.start == 5 && m.prevOffset == 1 && !m.isDecrease && !m.isBoundaryMove
  {
    TwoLines();
    var spans := RowSpans(e.text, rows);
    assert spans == [Span(0, 3), Span(4, 9)];
    assert Down.Step() == 1 && Covers(spans[0], e.start);
    MoveFromRow(e, rows, Down, 0);
    var m := MoveVertically(e, rows, Down).state;
    assert m.start == 5 && m.prevOffset == 1 && !m.isDecrease;
  }

  /** Up from offset 5 of "abc\ndEFGH", with column 1 remembered, lands on offset 1. */
  lemma UpFromColumnOne(e: Editor, rows: seq<string>)
    requires e.Valid() && e.text == "abc\ndEFGH" && rows == ["abc", "dEFGH"]
    requires e.start == 5 && e.prevOffset == 1 && e.isMouseClick == Defined(false) && !e.isDecrease && !e.isBoundaryMove
    ensures IsLayoutOf(rows, e.text)
    ensures ArrowUp(e, rows).state.start == 1
  {
    TwoLines();
    var spans := RowSpans(e.text, rows);
    assert spans == [Span(0, 3), Span(4, 9)];
    assert Up.Step() == -1 && Covers(spans[1], e.start);
    MoveFromRow(e, rows, Up, 1);
    assert MoveVertically(e, rows, Up).state.start == 1;
  }

  /**
   * In "abc\ndEFGH", down from offset 6 (column 2 of the last row) goes to the end of the
   * buffer, and up from there returns to column 2 of the row above: offset 2.
   */
  lemma BoundaryMoveKeepsColumn()
    ensures IsLayoutOf(["abc", "dEFGH"], "abc\ndEFGH")
    ensures var down := ArrowDown(Caret("abc\ndEFGH", 6), ["abc", "dEFGH"]);
            && down.Moved? && down.state.start == 9 && down.state.prevOffset == 2
            && ArrowUp(down.state, ["abc", "dEFGH"]).state.start == 2
  {
    var rows := ["abc", "dEFGH"];
    var e := Caret("abc\ndEFGH", 6);
    TwoLines();
    var spans := RowSpans(e.text, rows);
    assert spans == [Span(0, 3), Span(4, 9)];
    assert Down.Step() == 1 && Up.Step() == -1 && Covers(spans[1], e.start);
    BoundaryFromRow(e, rows, Down, 1);
    var mid := MoveVertically(e, rows, Down).state;
    assert mid.start == 9 && mid.text == e.text && mid.prevOffset == 2 && mid.isBoundaryMove;
    MoveFromRow(mid, rows, Up, 1);
    assert MoveVertically(mid, rows, Up).state.start == 2;
  }

  /** "abcdef\nab\nabcdef" is laid out as its three lines, with spans 0..6, 7..9 and 10..16. */
  lemma ThreeLines()
    ensures IsLayoutOf(["abcdef", "ab", "abcdef"], "abcdef\nab\nabcdef")
    ensures RowSpans("abcdef\nab\nabcdef", ["abcdef", "ab", "abcdef"]) == [Span(0, 6), Span(7, 9), Span(10, 16)]
  {
    ThreeLinesLayout();
    ThreeLinesSpans();
  }

  lemma ThreeLinesLayout()
    ensures IsLayoutOf(["abcdef", "ab", "abcdef"], "abcdef\nab\nabcdef")
  {
    var text := "abcdef\nab\nabcdef";
    var rows := ["abcdef", "ab", "abcdef"];
    assert rows[1..] == ["ab", "abcdef"] && rows[1..][1..] == ["abcdef"];
    assert text[0..6] == "abcdef" && text[7..9] == "ab" && text[10..16] == "abcdef";
    assert LayoutFrom(rows[1..][1..], text, 10);
    assert LayoutFrom(rows[1..], text, 7);
  }

  lemma ThreeLinesSpans()
    ensures RowsPositions("abcdef\nab\nabcdef", ["abcdef", "ab", "abcdef"]) == [Span(0, 6), Span(7, 9), Span(10, 16)]
  {
    var text := "abcdef\nab\nabcdef";
    FoundIffNewline(text, 6);
    FoundIffNewline(text, 9);
    FoundIffNewline(text, 17);
    ThreeLinesPlace(EolsPositions(text));
  }

  lemma ThreeLinesPlace(eols: seq<int>)
    requires Found(eols, 6, false) && Found(eols, 9, false) && !Found(eols, 17, false)
    ensures Place(eols, ["abcdef", "ab", "abcdef"], 0, false) == [Span(0, 6), Span(7, 9), Span(10, 16)]
  {
    var rows := ["abcdef", "ab", "abcdef"];
    assert rows[1..] == ["ab", "abcdef"] && rows[1..][1..] == ["abcdef"];
    assert Place(eols, rows[1..][1..], 10, false) == [Span(10, 16)];
    assert Place(eols, rows[1..], 7, false) == [Span(7, 9), Span(10, 16)];
  }

  /**
   * In "abcdef\nab\nabcdef", down from offset 5 is clamped to the end of the short row
   * (offset 9), and down again goes back to column 5 of the last row (offset 15).
   */
  lemma ClampedColumnIsRemembered()
    ensures IsLayoutOf(["abcdef", "ab", "abcdef"], "abcdef\nab\nabcdef")
    ensures var once := ArrowDown(Caret("abcdef\nab\nabcdef", 5), ["abcdef", "ab", "abcdef"]);
            && once.Moved? && once.state.start == 9 && once.state.isDecrease
            && ArrowDown(once.state, ["abcdef", "ab", "abcdef"]).state.start == 15
  {
    var e := Caret("abcdef\nab\nabcdef", 5);
    var rows := ["abcdef", "ab", "abcdef"];
    ClampedFirstDown(e, rows);
    ClampedSecondDown(ArrowDown(e, rows).state, rows);
  }

  /** The first move down from offset 5 is clamped to the end of the short row, column 5 remembered. */
  lemma ClampedFirstDown(e: Editor, rows: seq<string>)
    requires e.Valid() && e.text == "abcdef\nab\nabcdef" && rows == ["abcdef", "ab", "abcdef"]
    requires e.start == 5 && e.isMouseClick == Defined(false) && !e.isDecrease && !e.isBoundaryMove
    ensures IsLayoutOf(rows, e.text)
    ensures var m := ArrowDown(e, rows).state;
            && ArrowDown(e, rows).Moved? && m.Valid() && m.text == e.text && m.isMouseClick == Defined(false)
            && m.start == 9 && m.isDecrease && m.prevOffset == 5 && !m.isBoundaryMove
  {
    ThreeLines();
    var spans := RowSpans(e.text, rows);
    assert spans == [Span(0, 6), Span(7, 9), Span(10, 16)];
    assert Down.Step() == 1 && Covers(spans[0], e.start);
    MoveFromRow(e, rows, Down, 0);
    var m := MoveVertically(e, rows, Down).state;
    assert m.start == 9 && m.isDecrease && m.prevOffset == 5;
  }

  /** From a caret clamped to the end of the short row, with column 5 remembered, down returns to column 5. */
  lemma ClampedSecondDown(e: Editor, rows: seq<string>)
    requires e.Valid() && e.text == "abcdef\nab\nabcdef" && rows == ["abcdef", "ab", "abcdef"]
    requires e.start == 9 && e.isDecrease && e.prevOffset == 5 && !e.isBoundaryMove && e.isMouseClick == Defined(false)
    ensures IsLayoutOf(rows, e.text)
    ensures ArrowDown(e, rows).state.start == 15
  {
    ThreeLines();
    assert RowSpans(e.text, rows) == [Span(0, 6), Span(7, 9), Span(10, 16)];
    assert Down.Step() == 1 && Covers(RowSpans(e.text, rows)[1], e.start);
    MoveFromRow(e, rows, Down, 1);
    assert ArrowDown(e, rows) == Moved(MoveToRow(e, 2, Span(10, 16)));
  }

  /** "abcdefghi" soft-wrapped into three rows of three: spans 0..2, 3..5 and 6..9. */
  lemma SoftWrapped()
    ensures IsLayoutOf(["abc", "def", "ghi"], "abcdefghi")
    ensures RowSpans("abcdefghi", ["abc", "def", "ghi"]) == [Span(0, 2), Span(3, 5), Span(6, 9)]
  {
    SoftWrappedLayout();
    SoftWrappedSpans();
  }

  lemma SoftWrappedLayout()
    ensures IsLayoutOf(["abc", "def", "ghi"], "abcdefghi")
  {
    var text := "abcdefghi";
    var rows := ["abc", "def", "ghi"];
    assert rows[1..] == ["def", "ghi"] && rows[1..][1..] == ["ghi"];
    assert text[0..3] == "abc" && text[3..6] == "def" && text[6..9] == "ghi";
    assert LayoutFrom(rows[1..][1..], text, 6);
    assert LayoutFrom(rows[1..], text, 3);
  }

  lemma SoftWrappedSpans()
    ensures RowsPositions("abcdefghi", ["abc", "def", "ghi"]) == [Span(0, 2), Span(3, 5), Span(6, 9)]
  {
    var text := "abcdefghi";
    FoundIffNewline(text, 3);
    FoundIffNewline(text, 6);
    FoundIffNewline(text, 10);
    SoftWrappedPlace(EolsPositions(text));
  }

  lemma SoftWrappedPlace(eols: seq<int>)
    requires !Found(eols, 3, false) && !Found(eols, 6, false) && !Found(eols, 10, false)
    ensures Place(eols, ["abc", "def", "ghi"], 0, false) == [Span(0, 2), Span(3, 5), Span(6, 9)]
  {
    var rows := ["abc", "def", "ghi"];
    assert rows[1..] == ["def", "ghi"] && rows[1..][1..] == ["ghi"];
    assert Place(eols, rows[1..][1..], 6, false) == [Span(6, 9)];
    assert Place(eols, rows[1..], 3, false) == [Span(3, 5), Span(6, 9)];
  }

  /**
   * A click on the first line of "abcdefghi" (soft-wrapped into rows of three) that leaves the
   * caret at offset 3 makes the caret count as the end of the first row: down goes to the end
   * of the second row (offset 5). Without the click the caret is at the start of the second row
   * and down goes to offset 6.
   */
  lemma ClickAtSoftWrap()
    ensures IsLayoutOf(["abc", "def", "ghi"], "abcdefghi")
    ensures ArrowDown(HandleClick(Caret("abcdefghi", 3), Some(0)), ["abc", "def", "ghi"]).state.start == 5
    ensures ArrowDown(Caret("abcdefghi", 3), ["abc", "def", "ghi"]).state.start == 6
  {
    var rows := ["abc", "def", "ghi"];
    var e := Caret("abcdefghi", 3);
    SoftWrapped();
    var spans := RowSpans(e.text, rows);
    assert FindIndexFrom(spans, 3, 0) == 1;
    assert FindRowIndex(spans, 3, Defined(true), 0) == Index(0);
    MoveFromRow(e, rows, Down, 1);
  }
}

=== FILE: text_control.dfy ===
/**
 * The parts of the browser's `<textarea>` API that the text area relies on, written out:
 * the selection setters clamp to the value's length and never leave `start > end`, and
 * `setRangeText(replacement, start, end, 'end')` splices and parks the caret after the
 * inserted text.
 */
module TextControl {

  /** A selection of the control: `start <= end <= |value|` whenever it comes from this module. */
  datatype Range = Range(start: nat, end: nat)

  /** `setSelectionRange(start, end)`: `end` is clamped to the length, then `start` to `end`. */
  function SetSelectionRange(len: nat, start: nat, end: nat): (r: Range)
    ensures r.start <= r.end <= len
    ensures start <= end <= len ==> r == Range(start, end)
    ensures r.end == end || (end > len && r.end == len)
    ensures r.start == start || (start > r.end && r.start == r.end)
  {
    var e := if end <= len then end else len;
    Range(if start <= e then start else e, e)
  }

  /** `selectionStart = pos; selectionEnd = pos`: a collapsed caret at `pos`, clamped to the length. */
  function SetCursor(len: nat, pos: nat): (c: nat)
    ensures c <= len
    ensures pos <= len ==> c == pos
    ensures pos > len ==> c == len
  {
    var afterStart := SetSelectionRange(len, pos, pos);
    SetSelectionRange(len, afterStart.start, pos).end
  }

  /** The buffer and collapsed caret left by `setRangeText(replacement, start, end, 'end')`. */
  datatype Splice = Splice(text: string, caret: nat)

  /**
   * `setRangeText(replacement, start, end, 'end')`. The browser throws when `start > end`, which
   * no caller does; both bounds are clamped to the length before the splice.
   */
  function SetRangeTextEnd(text: string, replacement: string, start: nat, end: nat): (r: Splice)
    requires start <= end
    ensures var s := if start <= |text| then start else |text|;
            var e := if end <= |text| then end else |text|;
            && |r.text| == |text| - (e - s) + |replacement|
            && r.caret == s + |replacement|
            && r.text[..s] == text[..s]
            && r.text[s..r.caret] == replacement
            && r.text[r.caret..] == text[e..]
    ensures r.caret <= |r.text|
  {
    var s := if start <= |text| then start else |text|;
    var e := if end <= |text| then end else |text|;
    var t := text[..s] + replacement + text[e..];
    assert t[..s] == text[..s];
    assert t[s..s + |replacement|] == replacement;
    assert t[s + |replacement|..] == text[e..];
    Splice(t, s + |replacement|)
  }
}

=== FILE: wrappers.dfy ===
/** Optional values, standing in for JavaScript's `undefined` where the source reads a missing property. */
module Wrappers {

  datatype Option<+T> = None | Some(value: T)
}
